=== FILE: README.md ===
# Tetris engine in Dafny

A Dafny model of the game engine of a small Java Tetris (`src/Board.java`,
`src/Piece.java`, `src/Randp.java` and the game logic of `src/JTetris.java`).
Everything is a value: a board, a piece, a bag and a game are immutable
datatypes, and every Java method that mutates them is a pure function from the
old value to the new one.

- `wrappers.dfy` (module `Wrappers`): `Option`, standing in for a nullable
  reference.
- `pieces.dfy` (module `Pieces`): a piece is its list of body points and a
  colour tag. Width, height and skirt are derived exactly as the Java
  constructor computes them. The skirt keeps Java's `Integer.MAX_VALUE` fill
  for a column no point lies in. `Rotate` is `calcNextPiece`, which maps every
  point (x, y) to (y, width - 1 - x). With row 0 at the bottom of the board,
  this map turns a piece clockwise, although the Java comment on
  `nextRotation` says counterclockwise; the model states only the coordinate
  map. `Equals` is `Piece.equals`, an order-insensitive comparison of shapes.
- `catalog.dfy` (module `Catalog`): `parsePoints` over the already-split
  integers, and the rotation cycle that `setRotationCycle` links.
  A Java piece's `next` pointer becomes a position in a sequence: entry i of a
  cycle of length n turns into entry (i + 1) % n. `GetPieces` is the catalogue
  of the seven literal tetrominoes, whose cycle lengths are proved to be
  I = 2, L = 4, J = 4, S = 2, Z = 2, O = 1 and T = 4.
- `board.dfy` (module `Boards`): the grid of optional colours with its
  `widths` and `heights` counters. It models `place`, `dropHeight`,
  `clearRows`, `getMaxHeight` and the one-level `undo`/`commit` transaction.
  Each loop is a recursive function, and a reference definition of what the
  loop computes is linked to it by a lemma. Three behaviours of the code are
  modelled as written:
  - `place` leaves the cells written before the first bad body point painted
    when it fails.
  - In `clearRows` a full row empties row `curTopRow` instead of itself. When
    several rows are full, a full row can therefore keep its cells with its
    count set to 0 (`ClearRowsLeavesFullRow` gives the smallest such board).
  - Column heights are lowered arithmetically by the number of full rows,
    never below 0.
- `randp.dfy` (module `Bags`): the shuffle bag `Randp` as a value. The array
  and `numsLeft` are its state. The index `nextInt` would return is a
  parameter of `Next`.
- `tetris.dfy` (module `Tetris`): `setCurrent`, `addNewPiece`, `getNewPos` and
  `step`. `step` is split into the shift of a piece, the landing and loss
  branch, and the rotation with its centred origin and ordered wall kicks.
  The game record holds the board, the catalogue, the bag, the current piece
  (a catalogue position and orientation, `None` while Java's `curPiece` is
  null), its position and the two flags.

Java's `undo` and `commit` make the live and backup arrays the same array
objects. The board keeps this observable: a flag `pending` records that a
`place` has copied the live arrays into the backup since the last `undo` or
`commit`. `ClearRows` without such a snapshot changes the backup along with
the live arrays, as the shared Java arrays would.

A ROTATE that fits nowhere does not leave the piece where it was on the
board. `step` takes the piece off with `undo`, and the final
`setCurrent(nextPiece, curX, curY)` undoes its own failed place. The current
piece and position are kept, but the board no longer shows the piece
(`TurnVanishes`). A vertical I in a one-column well is such a case: neither
the horizontal I nor any of its kicks fits.

## Model

| member | source | states |
|---|---|---|
| Pieces.BoundingBox | src/Piece.java:29-40 | The width is the span of the x coordinates: every two body points differ in x by less than it, and some two differ by exactly width - 1. The same holds for the height and y. |
| Pieces.SkirtLowest | src/Piece.java:42-46 | The skirt has one entry per column of the width. Entry c is at most the y of every point c columns right of the leftmost one, and it is one of those y values, or Integer.MAX_VALUE when no point lies in that column. |
| Pieces.Rotate | src/Piece.java:166-173 | The next rotation keeps the body length and the colour and sends point i from (x, y) to (y, width - 1 - x). |
| Pieces.RotateNormalized | src/Piece.java:166-173 | A piece whose body touches x = 0 and y = 0 still touches both after a turn, and its width and height swap. |
| Pieces.FourTurnsIdentity | src/Piece.java:151-161 | Four turns of a normalised piece give back the same piece, so the search for the closing turn ends. |
| Pieces.AllInMembers | src/Piece.java:103-108 | The receiver loop of equals succeeds exactly when every point of the receiver is a point of the other body. |
| Pieces.Equals | src/Piece.java:94-109 | equals holds exactly when the two pieces have the same width, height and body length and every point of the receiver is a point of the other piece. |
| Pieces.EqualsReflexive | src/Piece.java:94-109 | A piece inside its own box is equal to itself. |
| Pieces.EqualsIgnoresOrder | src/Piece.java:89-109 | Two pieces with the same box and the same points in another order are equal. |
| Catalog.ParsePoints | src/Piece.java:179-186 | parsePoints of n integers gives n / 2 points; an odd last integer is dropped. |
| Catalog.ParsePointsPairs | src/Piece.java:179-186 | parsePoints of n integers gives n / 2 points, and point i is (v[2i], v[2i+1]). |
| Catalog.ParseFlatten | src/Piece.java:179-186 | Parsing the coordinates of any point list gives the list back. |
| Catalog.FlattenParse | src/Piece.java:179-186 | The coordinates of parsed points are the input up to its even-length prefix, so an odd last value is dropped. |
| Catalog.RotationCycle | src/Piece.java:151-161 | setRotationCycle links between 1 and 4 pieces, and the piece at position i is the start turned i times. |
| Catalog.RotationCycleNormalized | src/Piece.java:151-161 | The first entry of a cycle is the start piece, and every entry is normalised and inside its box. |
| Catalog.RotationCycleSteps | src/Piece.java:153-157 | Each entry of a cycle is the quarter turn of the one before. |
| Catalog.RotationCycleCloses | src/Piece.java:154-159 | The turn of the last entry is equal to the start piece, so its next link back to the start closes the cycle. |
| Catalog.RotationCycleFresh | src/Piece.java:154-158 | No entry after the first is equal to the start piece. |
| Catalog.CycleLengthLeast | src/Piece.java:151-161 | The cycle length is the least positive number of turns after which the piece equals the start. |
| Catalog.NextIndex | src/Piece.java:155-159 | The next link of an entry is the following entry, and the last entry links back to the first. |
| Catalog.FirstPieceCycle | src/Piece.java:131-141 | Each of the seven literal tetrominoes has four cells, is normalised, and has 2, 4, 4, 2, 2, 1 and 4 orientations, in catalogue order. |
| Catalog.GetPieces | src/Piece.java:131-144 | getPieces gives seven cycles in catalogue order, each starting with the parsed literal piece, with the listed number of orientations. All entries are normalised, and each is the quarter turn of the one before. |
| Catalog.TurnsNormalized | src/Piece.java:166-173 | Any number of turns of a normalised piece is normalised and inside its box. |
| Boards.NewBoard | src/Board.java:37-42 | A new board has the given size, is committed, and has every cell empty and every row count and column height 0. |
| Boards.Place | src/Board.java:61-71 | place always leaves the board uncommitted, with the pre-call live arrays as its backup, whatever it returns. |
| Boards.PlaceSpec | src/Board.java:73-94 | place paints the body points before the first point that cannot be written. It returns OUT_BOUNDS or BAD for that point, or, when every point was written, ROW_FILLED if a written cell brought its row to the board width and OK otherwise. |
| Boards.PlaceSucceeds | src/Board.java:75-88 | place writes the whole piece exactly when every body point is on the board, on an empty cell, and not on the cell of an earlier point. |
| Boards.PlaceWrites | src/Board.java:75-83 | Every body point before the one place stopped at keeps its painted cell, a failed place included. |
| Boards.PlaceFails | src/Board.java:78-81 | OUT_BOUNDS is returned only when some body point is off the board, and BAD only when some point on the board cannot be written. A piece wholly on the board is never out of bounds. |
| Boards.PlacedCells | src/Board.java:83 | After a successful place, a cell holds the piece colour if a body point landed on it and its old content otherwise. |
| Boards.PlacedWidths | src/Board.java:84 | After a successful place, each row's count has risen by the number of body points in that row. |
| Boards.PlacedUnderHeights | src/Board.java:85 | After a successful place, every body point is on the board and below its column's new height. |
| Boards.PlacedHeights | src/Board.java:85 | After a successful place, each column height is unchanged or is one past a body point in that column, and never lower than before. |
| Boards.PlacedInside | src/Board.java:75-79 | A normalised piece placed in full lies, box and all, inside the board. |
| Boards.PlaceReadsLive | src/Board.java:61-95 | place reads only the live arrays and the size: two boards that agree on them give the same result. |
| Boards.DropHeight | src/Board.java:102-110 | dropHeight is at least -1 and at least every column height minus its skirt entry, and it equals -1 or one of those differences. |
| Boards.DropClears | src/Board.java:97-110 | Dropped at dropHeight, every body point of a normalised piece sits at or above its column's height. |
| Boards.ClearRows | src/Board.java:116-153 | clearRows leaves the board valid and uncommitted. After a place it does not touch the backup that undo restores. |
| Boards.ClearRowsResult | src/Board.java:123-152 | clearRows returns true exactly when a full row lies below the first empty row. Every column height drops by the number of such rows, to no less than 0. |
| Boards.ClearRowsKept | src/Board.java:133-146 | The rows below the first empty row that are not full end up at the bottom, in their old order, with their cells and counts. |
| Boards.ClearRowsVacated | src/Board.java:125-146 | Every other scanned row has count 0. It is emptied, or it is a full row left where it was. |
| Boards.ClearRowsAbove | src/Board.java:133-134 | The first empty row and every row above it are untouched. |
| Boards.ClearRowsNoFull | src/Board.java:116-153 | With no full row, clearRows changes no cell, count or height and returns false. |
| Boards.ClearRowsLeavesFullRow | src/Board.java:126-132 | On a one-column board with two full rows, the second row keeps its cell with its count at 0. |
| Boards.MaxHeight | src/Board.java:158-166 | getMaxHeight is at least every column height and equals one of them. |
| Boards.Undo | src/Board.java:224-231 | undo leaves the committed flag as it was and does nothing on a committed board. Otherwise the live arrays become the arrays the backup held before the call, and the backup keeps them. |
| Boards.Commit | src/Board.java:237-242 | commit keeps the live arrays, makes them the backup, and sets the committed flag. |
| Boards.UndoPlace | src/Board.java:61-71 | undo after a place gives back the arrays from before the place, whatever the place returned. |
| Boards.UndoPlaceClear | src/Board.java:116-121 | undo after a place and a clearRows gives back the arrays from before the place. |
| Boards.UndoTwice | src/Board.java:224-231 | A second undo changes nothing. |
| Boards.CommitUndo | src/Board.java:233-242 | undo right after commit changes nothing. |
| Bags.New | src/Randp.java:8-12 | A new bag has its whole array unused. |
| Bags.Swap | src/Randp.java:26-30 | swap exchanges two entries and changes no other. |
| Bags.SwapPermutes | src/Randp.java:26-30 | swap keeps the same multiset of elements. |
| Bags.Next | src/Randp.java:14-24 | next resets an exhausted pool to the whole array, returns entry r, and leaves it at the new boundary numsLeft, which is one less than the pool. The array keeps its elements. |
| Bags.NextTakesFromPool | src/Randp.java:18-23 | The new unused prefix plus the drawn element is the old pool, and entries past the pool are untouched. |
| Bags.DrawsFromPool | src/Randp.java:14-24 | Draws that stay within the unused prefix return elements which, together with what is still unused, make up the prefix they started from. |
| Bags.RoundDrawsAll | src/Randp.java:14-24 | A full round from a fresh or exhausted bag returns every element of the array exactly once. |
| Tetris.NextTurn | src/JTetris.java:225 | The next orientation is the next entry of the cycle, and the first after the last. |
| Tetris.NextTurnRotates | src/Piece.java:151-161 | In the catalogue, the orientation after a piece is its quarter turn, and after the last comes the first literal piece. |
| Tetris.SetCurrent | src/JTetris.java:128-140 | On OK or ROW_FILLED the piece becomes current at (x, y). Otherwise the current piece and position are unchanged. The bag and the flags never change. The returned code is the result of placing the piece at (x, y) on the board with the current piece taken off. |
| Tetris.SetCurrentShows | src/JTetris.java:128-140 | On success, the board is the undone board with the piece painted at (x, y), and undo takes it off again. On failure, the board is the undone board. |
| Tetris.AddNewPiece | src/JTetris.java:154-166 | If the game is not being played, is lost, or the board is not committed, it returns BAD and changes nothing. Otherwise it draws once from the bag, and the returned code is the result of placing the drawn piece's first orientation on the board at column (10 - width) / 2, row 20. If that place succeeds, the board is that place's board and the drawn piece is current there. Otherwise the board is that failed place undone, with no pending snapshot, and the current piece and its position are as before. |
| Tetris.SpawnCentred | src/JTetris.java:159-160 | A successful spawn makes the drawn entry current in its first orientation, on row 20, centred on the board up to one column. |
| Tetris.NewPos | src/JTetris.java:174-182 | Every known command moves the column by at most one; every command but DROP moves the row down by at most one; DROP keeps the column and gives a row of at least -1. |
| Tetris.NewPosSteps | src/JTetris.java:174-182 | DOWN, LEFT and RIGHT move the position by one row or column, ROTATE keeps it, and any other command gives (-1, -1). |
| Tetris.NewPosDrop | src/JTetris.java:180 | DROP keeps the column and takes the drop height of the board. |
| Tetris.DropPosClears | src/JTetris.java:180 | The DROP row is at least -1, and every point of the piece sits at or above its column's height there. |
| Tetris.DropPosRests | src/JTetris.java:180 | Unless it is -1, the DROP row rests one skirt column exactly on its column's height. |
| Tetris.Land | src/JTetris.java:198-211 | A failed DOWN or DROP loses the game exactly when the trial board's maximum height plus one exceeds 20. A lost game stops playing and keeps its piece, position and bag, and its board is the trial board undone with the piece placed back at its position. Otherwise the board with the piece placed back has its full rows cleared and is committed, and the next piece is drawn. If that piece fits at column (10 - width) / 2, row 20 of the cleared board, it becomes current there on that board. If it does not fit, the board is that failed place undone, so the cleared and committed cells stay, and the old piece and position are kept. |
| Tetris.Shift | src/JTetris.java:193-218 | A move other than ROTATE can lose the game only on DOWN or DROP. |
| Tetris.ShiftMoves | src/JTetris.java:193-218 | A move that fits takes the piece to getNewPos's position, and the board is the undone board with the piece placed there. A DOWN or DROP that does not fit lands the piece. Any other failed move leaves the piece, its position and the bag as they were. Its board is exactly the undone board with the piece placed back at its position, so its snapshot of the board without the piece is pending. |
| Tetris.KickTry | src/JTetris.java:238-244 | A kick fits exactly when the test place succeeds. Then the turned piece becomes current there, and the board is the given board with it placed there. A kick that does not fit changes no piece, position or live cell, and leaves no pending snapshot. |
| Tetris.KickFits | src/JTetris.java:238-242 | The first kick that fits ends the search, with the turned piece current at that kick. |
| Tetris.KickMisses | src/JTetris.java:238-244 | A kick that does not fit hands over to the next kick, with the piece and position unchanged. |
| Tetris.KickLast | src/JTetris.java:246-247 | With no kick left, the turned piece is tried at the old position. |
| Tetris.Kick | src/JTetris.java:236-247 | The wall-kick loop never changes the bag or the flags. It leaves the piece and position as they were, or makes the turned piece current at the old position or at one of the kicks. When the first kick fits, the loop's result is that kick's. |
| Tetris.TurnOrigin | src/JTetris.java:222-227 | The centre of the turned piece's box lies within half a cell of the centre of the old piece's box, in both directions. |
| Tetris.TurnPiece | src/JTetris.java:219-248 | A ROTATE keeps the game valid and never changes the bag, the playing flag or the lost flag. Undoing the new board gives the old board without its piece. The new board is either that board with no piece on it, or that board with the next orientation placed at the new current position. |
| Tetris.TurnTargets | src/JTetris.java:219-248 | A turn that fits at the centred origin makes the next orientation current there, placed on the board without the old piece. Otherwise either the next orientation is current and placed at a wall kick or at the old origin, or the current piece and position are kept and the board has no piece on it: the old piece is not put back. |
| Tetris.KickSpotAt | src/JTetris.java:236 | A position is one of the kick spots exactly when it is the origin shifted by some entry of the kick table. |
| Tetris.KickBoards | src/JTetris.java:236-247 | On a board with no pending snapshot, the loop ends either with the piece and position kept and the live cells unchanged, or with the turned piece current at a spot where it fits and placed there. |
| Tetris.KickVanishes | src/JTetris.java:236-247 | When the turned piece fits at none of the kicks and not at the old position, the loop keeps the piece and position and leaves the live cells without the piece, because setCurrent at line 247 undoes its own failed place. |
| Tetris.TurnVanishes | src/JTetris.java:219-248 | A ROTATE whose next orientation fits neither at the centred origin, nor at a kick, nor at the old origin keeps the current piece and position on a board from which that piece has been taken off. |
| Tetris.Step | src/JTetris.java:189-193 | step does nothing while the game is paused, lost, or has no current piece. Only a DOWN or DROP can lose the game. |
| Tetris.StartGame | src/JTetris.java:94-112 | startGame gives a valid game that is being played and not lost, holding the catalogue of getPieces, with one piece drawn from a fresh bag of the seven. |

## Left out

- Swing painting, key bindings, `MoveAction`, the drop timer and `main` in
  `src/JTetris.java`: display and input wiring, with no game logic.
- `src/Debug.java` is not part of this model: it is a console driver that
  only prints.
- `java.util.Random`: the index `nextInt` returns is the parameter `r` of
  `Next`, `AddNewPiece`, `Land`, `Shift` and `Step`, within the pool size.
  `pickNextPiece` is folded into `AddNewPiece`.
- `java.awt.Color` and `java.awt.Point`: a colour is a seven-valued tag and a
  point a pair of unbounded integers.
- The `toString` methods of `Board` and `Piece`, and the accessors
  `getWidth`, `getHeight`, `getBody`, `getSkirt` and `getColor`: the first are
  for display, and the rest are plain field reads of the datatypes.
- The `moved` field of `JTetris`: it is written and never read.
- 32-bit integer overflow: positions stay within a few cells of a 10 x 24
  board, so no arithmetic of the modelled code can wrap.
- A board of width 0: `place` reads `grid[0]` and would throw, so `NewBoard`
  requires a positive width.
- Java's null backup arrays before the first `place` or `commit`: a new
  board starts with the backup equal to its live arrays. While the board is
  committed `undo` never reads the backup. A `clearRows` on a new board
  differs, though: Java then sets `committed` to false with no backup, and
  the next `undo` installs the null arrays, so the next `at` or `place`
  throws. The model's `Undo` keeps the cleared arrays instead. The game
  never does this: it calls `clearRows` only on a board fresh from `place`.
- The Board accessors `at`, `getGrid`, `getColumnHeight`, `getRowWidth` and
  `isCommited` (`Board.At`, `ColumnHeight`, `RowWidth` and `IsCommitted`):
  they are plain reads of the arrays and the flag, with no contract of their
  own.
- The bag holds catalogue positions where Java's `Randp` shuffles the
  `Piece[]` array that `getPieces` caches. Java's second `startGame` therefore
  starts its bag from the order the first game left. `StartGame` always
  starts from catalogue order.
- Move strings: Java compares `mv` with the command constants by reference.
  The model takes a `Move` datatype, so a command equal in text but not in
  identity is not modelled.
- Tetris.Shift: its contract states only that the game cannot be lost by a
  move other than DOWN or DROP. Where each move takes the piece is stated
  by `ShiftMoves`.
- Tetris.StartGame: its contract does not state that the first piece fits
  on the empty board. `SpawnCentred` states where any spawn that fits goes.
- Tetris.Kick: its contract does not state that a kick is chosen only when the
  kicks before it failed, nor what the board holds afterwards. `KickFits` and
  `KickMisses` together state the order, and `KickBoards` states the board.

=== FILE: board.dfy ===
/**
 * The board engine (src/Board.java): a width x height grid of optional
 * colours with per-row fill counts and per-column heights, placement with
 * collision checks, the row-clearing pass, and a one-level undo/commit
 * transaction. The board is a value: every operation returns a new one.
 */
module Boards {
  import opened Wrappers
  import opened Pieces

  /** A grid cell: empty (Java's null) or painted with a piece's colour. */
  type Cell = Option<Color>

  const DefaultWidth: nat := 10
  const DefaultHeight: nat := 20

  /** The outcome codes of place. */
  datatype PlaceResult = PlaceOk | RowFilled | OutBounds | Bad {
    /** The integer constant Java returns for this outcome. */
    function Code(): int {
      match this
      case PlaceOk => 1
      case RowFilled => 2
      case OutBounds => 3
      case Bad => 4
    }

    /** The piece was written in full. */
    predicate Placed() {
      this == PlaceOk || this == RowFilled
    }
  }

  /**
   * The three arrays of a board: grid[x][y] (column x, row y, row 0 at the
   * bottom), widths[y] the count of filled cells of row y, heights[x] one
   * past the top filled cell of column x.
   */
  datatype Contents = Contents(grid: seq<seq<Cell>>, widths: seq<int>, heights: seq<int>)

  /** The arrays have the board's dimensions. */
  predicate Shaped(c: Contents, w: nat, h: nat) {
    |c.grid| == w && |c.widths| == h && |c.heights| == w &&
    forall x :: 0 <= x < w ==> |c.grid[x]| == h
  }

  /** Arrays of the given dimensions with no heights below 0. */
  predicate WellFormed(c: Contents, w: nat, h: nat) {
    Shaped(c, w, h) && forall x :: 0 <= x < w ==> c.heights[x] >= 0
  }

  /**
   * A board: its dimensions, the live arrays, the committed flag and the
   * backup arrays. `pending` records that a place has copied the live arrays
   * into the backup since the last undo or commit; Java's undo and commit
   * instead make the two share the same arrays (see clearRows).
   */
  datatype Board = Board(width: nat, height: nat, cur: Contents, committed: bool, backup: Contents, pending: bool) {
    /**
     * The arrays have the board's dimensions; a committed board has no
     * pending snapshot, and without one the backup is the live arrays
     * (Java shares the arrays between the two after undo and commit).
     */
    predicate Valid() {
      width > 0 && WellFormed(cur, width, height) && WellFormed(backup, width, height) &&
      (committed ==> !pending) && (!pending ==> backup == cur)
    }

    /** Java's at(x, y) and getGrid(x, y). */
    function At(x: int, y: int): Cell
      requires Valid() && 0 <= x < width && 0 <= y < height
    {
      cur.grid[x][y]
    }

    /** Java's getColumnHeight(x). */
    function ColumnHeight(x: int): int
      requires Valid() && 0 <= x < width
    {
      cur.heights[x]
    }

    /** Java's getRowWidth(y). */
    function RowWidth(y: int): int
      requires Valid() && 0 <= y < height
    {
      cur.widths[y]
    }

    /** Java's isCommited(). */
    predicate IsCommitted() {
      committed
    }
  }

  /** Arrays of a new board: every cell empty, every count 0. */
  function EmptyContents(w: nat, h: nat): (c: Contents)
    ensures WellFormed(c, w, h)
    ensures forall x, y :: 0 <= x < w && 0 <= y < h ==> c.grid[x][y] == None
    ensures forall y :: 0 <= y < h ==> c.widths[y] == 0
    ensures forall x :: 0 <= x < w ==> c.heights[x] == 0
  {
    Contents(seq(w, x => seq(h, y => None)), seq(h, y => 0), seq(w, x => 0))
  }

  /**
   * The constructor Board(width, height): an empty, committed board. Java's
   * backup arrays start out null; undo never reads them while the board is
   * committed, so the model starts them out equal to the live ones.
   */
  function NewBoard(w: nat, h: nat): (b: Board)
    requires w > 0
    ensures b.Valid() && b.width == w && b.height == h
    ensures b.committed && !b.pending
    ensures forall x, y :: 0 <= x < w && 0 <= y < h ==> b.At(x, y) == None
    ensures forall y :: 0 <= y < h ==> b.RowWidth(y) == 0
    ensures forall x :: 0 <= x < w ==> b.ColumnHeight(x) == 0
  {
    Board(w, h, EmptyContents(w, h), true, EmptyContents(w, h), false)
  }

  /* place */

  /** The board cell a body point lands on when the piece's origin is at (x, y). */
  function Target(pt: Point, x: int, y: int): Point {
    Point(pt.x + x, pt.y + y)
  }

  predicate InGrid(q: Point, w: nat, h: nat) {
    0 <= q.x < w && 0 <= q.y < h
  }

  /** One iteration of place's write branch: paint the cell, count it in its row, raise its column. */
  function Write(c: Contents, w: nat, h: nat, q: Point, color: Color): (r: Contents)
    requires Shaped(c, w, h) && InGrid(q, w, h)
    ensures Shaped(r, w, h)
  {
    Contents(
      c.grid[q.x := c.grid[q.x][q.y := Some(color)]],
      c.widths[q.y := c.widths[q.y] + 1],
      c.heights[q.x := if c.heights[q.x] < q.y + 1 then q.y + 1 else c.heights[q.x]])
  }

  /**
   * The loop of place from body point i on: out of bounds or an occupied
   * cell stops it with the arrays as they are; otherwise the cell is written
   * and `filled` notes whether its row has just reached the board width.
   */
  function PlaceFrom(c: Contents, w: nat, h: nat, body: seq<Point>, color: Color, x: int, y: int, i: nat, filled: bool)
    : (r: (Contents, PlaceResult))
    requires Shaped(c, w, h) && i <= |body|
    ensures Shaped(r.0, w, h)
    decreases |body| - i
  {
    if i == |body| then (c, if filled then RowFilled else PlaceOk)
    else
      var q := Target(body[i], x, y);
      if !InGrid(q, w, h) then (c, OutBounds)
      else if c.grid[q.x][q.y] != None then (c, Bad)
      else
        var c' := Write(c, w, h, q, color);
        PlaceFrom(c', w, h, body, color, x, y, i + 1, filled || c'.widths[q.y] == w)
  }

  /** The outcome of place: the new board and the result code. */
  datatype Placement = Placement(board: Board, result: PlaceResult)

  /**
   * place(piece, x, y): snapshot the live arrays into the backup and clear
   * the committed flag, then write the body point by point. A failure
   * leaves the cells written before it in place.
   */
  function Place(b: Board, p: Piece, x: int, y: int): (r: Placement)
    requires b.Valid()
    ensures r.board.Valid() && r.board.width == b.width && r.board.height == b.height
    ensures !r.board.committed && r.board.pending && r.board.backup == b.cur
  {
    var (c, result) := PlaceFrom(b.cur, b.width, b.height, p.body, p.color, x, y, 0, false);
    PlaceKeepsHeights(b.cur, b.width, b.height, p.body, p.color, x, y, 0, false);
    Placement(Board(b.width, b.height, c, false, b.cur, true), result)
  }

  /** place reads only the live arrays and the size: two boards that agree on them give the same outcome. */
  lemma PlaceReadsLive(b1: Board, b2: Board, p: Piece, x: int, y: int)
    requires b1.Valid() && b2.Valid() && b1.width == b2.width && b1.height == b2.height && b1.cur == b2.cur
    ensures Place(b1, p, x, y) == Place(b2, p, x, y)
  {
  }

  lemma {:induction false} PlaceKeepsHeights(c: Contents, w: nat, h: nat, body: seq<Point>, color: Color, x: int, y: int, i: nat, filled: bool)
    requires WellFormed(c, w, h) && i <= |body|
    ensures WellFormed(PlaceFrom(c, w, h, body, color, x, y, i, filled).0, w, h)
    decreases |body| - i
  {
    if i < |body| {
      var q := Target(body[i], x, y);
      if InGrid(q, w, h) && c.grid[q.x][q.y] == None {
        var c' := Write(c, w, h, q, color);
        PlaceKeepsHeights(c', w, h, body, color, x, y, i + 1, filled || c'.widths[q.y] == w);
      }
    }
  }

  /* What place computes, stated without its loop */

  /** Body points 0 .. k - 1 written one after the other. */
  function Paint(c: Contents, w: nat, h: nat, body: seq<Point>, color: Color, x: int, y: int, k: nat): (r: Contents)
    requires Shaped(c, w, h) && k <= |body|
    requires forall j :: 0 <= j < k ==> InGrid(Target(body[j], x, y), w, h)
    ensures Shaped(r, w, h)
  {
    if k == 0 then c else Write(Paint(c, w, h, body, color, x, y, k - 1), w, h, Target(body[k - 1], x, y), color)
  }

  /**
   * Body point i can be written: its cell is on the board, was empty before
   * the call, and is not the cell of an earlier body point.
   */
  predicate Writable(c: Contents, w: nat, h: nat, body: seq<Point>, x: int, y: int, i: nat)
    requires Shaped(c, w, h) && i < |body|
  {
    var q := Target(body[i], x, y);
    InGrid(q, w, h) && c.grid[q.x][q.y] == None && forall j :: 0 <= j < i ==> body[j] != body[i]
  }

  /** The first body point from i on that cannot be written, or |body| if there is none. */
  function FirstStop(c: Contents, w: nat, h: nat, body: seq<Point>, x: int, y: int, i: nat): (k: nat)
    requires Shaped(c, w, h) && i <= |body|
    ensures i <= k <= |body|
    ensures forall j :: i <= j < k ==> Writable(c, w, h, body, x, y, j)
    ensures forall j :: i <= j < k ==> InGrid(Target(body[j], x, y), w, h)
    ensures k < |body| ==> !Writable(c, w, h, body, x, y, k)
    decreases |body| - i
  {
    if i == |body| || !Writable(c, w, h, body, x, y, i) then i else FirstStop(c, w, h, body, x, y, i + 1)
  }

  /** How many of body points 0 .. k - 1 land in row r. */
  function RowCount(body: seq<Point>, y: int, k: nat, r: int): (n: nat)
    requires k <= |body|
    ensures n <= k
  {
    if k == 0 then 0 else RowCount(body, y, k - 1, r) + (if body[k - 1].y + y == r then 1 else 0)
  }

  /** Writing one of body points 0 .. k - 1 brought its row's count to the board width. */
  predicate RowReached(c: Contents, w: nat, body: seq<Point>, y: int, k: nat)
    requires k <= |body|
  {
    exists j :: 0 <= j < k && 0 <= body[j].y + y < |c.widths| &&
      c.widths[body[j].y + y] + RowCount(body, y, j + 1, body[j].y + y) == w
  }

  /** The code place returns once it stops at point k (k = |body| when every point was written). */
  function Outcome(c: Contents, w: nat, h: nat, body: seq<Point>, x: int, y: int, k: nat): PlaceResult
    requires Shaped(c, w, h) && k <= |body|
    requires forall j :: 0 <= j < k ==> InGrid(Target(body[j], x, y), w, h)
  {
    if k == |body| then (if RowReached(c, w, body, y, k) then RowFilled else PlaceOk)
    else if !InGrid(Target(body[k], x, y), w, h) then OutBounds
    else Bad
  }

  /** One of body points 0 .. k - 1 lands on cell q. */
  predicate Covers(body: seq<Point>, x: int, y: int, k: nat, q: Point)
    requires k <= |body|
  {
    exists j :: 0 <= j < k && Target(body[j], x, y) == q
  }

  lemma CoversNext(body: seq<Point>, x: int, y: int, k: nat, q: Point)
    requires k < |body|
    ensures Covers(body, x, y, k + 1, q) <==> Covers(body, x, y, k, q) || Target(body[k], x, y) == q
  {
    if Covers(body, x, y, k + 1, q) && Target(body[k], x, y) != q {
      var j :| 0 <= j < k + 1 && Target(body[j], x, y) == q;
      assert j < k;
    }
  }

  /**
   * After writing points 0 .. k - 1 a cell holds the piece colour if one of
   * them landed on it, and its old content otherwise.
   */
  lemma {:induction false} PaintCells(c: Contents, w: nat, h: nat, body: seq<Point>, color: Color, x: int, y: int, k: nat)
    requires Shaped(c, w, h) && k <= |body|
    requires forall j :: 0 <= j < k ==> InGrid(Target(body[j], x, y), w, h)
    ensures forall q :: InGrid(q, w, h) ==>
      Paint(c, w, h, body, color, x, y, k).grid[q.x][q.y] == if Covers(body, x, y, k, q) then Some(color) else c.grid[q.x][q.y]
  {
    if k > 0 {
      PaintCells(c, w, h, body, color, x, y, k - 1);
      forall q | InGrid(q, w, h)
        ensures Paint(c, w, h, body, color, x, y, k).grid[q.x][q.y] == if Covers(body, x, y, k, q) then Some(color) else c.grid[q.x][q.y]
      {
        CoversNext(body, x, y, k - 1, q);
      }
    }
  }

  /** After writing points 0 .. k - 1 each row's count has risen by the number of them in that row. */
  lemma {:induction false} PaintWidths(c: Contents, w: nat, h: nat, body: seq<Point>, color: Color, x: int, y: int, k: nat)
    requires Shaped(c, w, h) && k <= |body|
    requires forall j :: 0 <= j < k ==> InGrid(Target(body[j], x, y), w, h)
    ensures forall r :: 0 <= r < h ==>
      Paint(c, w, h, body, color, x, y, k).widths[r] == c.widths[r] + RowCount(body, y, k, r)
  {
    if k > 0 {
      PaintWidths(c, w, h, body, color, x, y, k - 1);
    }
  }

  /** Writing one cell raises only its column's height, to at least one past the cell. */
  lemma WriteHeights(c: Contents, w: nat, h: nat, q: Point, color: Color)
    requires Shaped(c, w, h) && InGrid(q, w, h)
    ensures var r := Write(c, w, h, q, color);
      (forall cx :: 0 <= cx < w && cx != q.x ==> r.heights[cx] == c.heights[cx]) &&
      r.heights[q.x] >= c.heights[q.x] && r.heights[q.x] >= q.y + 1 &&
      (r.heights[q.x] == c.heights[q.x] || r.heights[q.x] == q.y + 1)
  {
  }

  /**
   * After writing points 0 .. k - 1 no column's height has dropped, and
   * each column stands at least one above every one of them in it ...
   */
  lemma {:induction false} PaintHeightsRise(c: Contents, w: nat, h: nat, body: seq<Point>, color: Color, x: int, y: int, k: nat)
    requires Shaped(c, w, h) && k <= |body|
    requires forall j :: 0 <= j < k ==> InGrid(Target(body[j], x, y), w, h)
    ensures forall cx :: 0 <= cx < w ==> Paint(c, w, h, body, color, x, y, k).heights[cx] >= c.heights[cx]
    ensures forall j :: 0 <= j < k ==>
      Paint(c, w, h, body, color, x, y, k).heights[body[j].x + x] >= body[j].y + y + 1
  {
    if k > 0 {
      PaintHeightsRise(c, w, h, body, color, x, y, k - 1);
      var prev := Paint(c, w, h, body, color, x, y, k - 1);
      WriteHeights(prev, w, h, Target(body[k - 1], x, y), color);
    }
  }

  /** ... and a column that has changed stands exactly one above one of them. */
  lemma {:induction false} PaintHeightsFrom(c: Contents, w: nat, h: nat, body: seq<Point>, color: Color, x: int, y: int, k: nat)
    requires Shaped(c, w, h) && k <= |body|
    requires forall j :: 0 <= j < k ==> InGrid(Target(body[j], x, y), w, h)
    ensures forall cx :: 0 <= cx < w ==>
      Paint(c, w, h, body, color, x, y, k).heights[cx] == c.heights[cx] ||
      exists j :: 0 <= j < k && body[j].x + x == cx && Paint(c, w, h, body, color, x, y, k).heights[cx] == body[j].y + y + 1
  {
    if k > 0 {
      PaintHeightsFrom(c, w, h, body, color, x, y, k - 1);
      var prev := Paint(c, w, h, body, color, x, y, k - 1);
      var cur := Paint(c, w, h, body, color, x, y, k);
      WriteHeights(prev, w, h, Target(body[k - 1], x, y), color);
      forall cx | 0 <= cx < w
        ensures cur.heights[cx] == c.heights[cx] ||
          exists j :: 0 <= j < k && body[j].x + x == cx && cur.heights[cx] == body[j].y + y + 1
      {
        if cur.heights[cx] != prev.heights[cx] {
          assert body[k - 1].x + x == cx && cur.heights[cx] == body[k - 1].y + y + 1;
        } else if prev.heights[cx] != c.heights[cx] {
          var j :| 0 <= j < k - 1 && body[j].x + x == cx && prev.heights[cx] == body[j].y + y + 1;
        }
      }
    }
  }

  /** Body point k's row is on the board and the count of points 0 .. k in it brings it to the width. */
  lemma RowReachedNext(c: Contents, w: nat, body: seq<Point>, y: int, k: nat)
    requires k < |body|
    ensures RowReached(c, w, body, y, k + 1) <==>
      RowReached(c, w, body, y, k) ||
      (0 <= body[k].y + y < |c.widths| && c.widths[body[k].y + y] + RowCount(body, y, k + 1, body[k].y + y) == w)
  {
    if RowReached(c, w, body, y, k + 1) && !RowReached(c, w, body, y, k) {
      var j :| 0 <= j < k + 1 && 0 <= body[j].y + y < |c.widths| &&
        c.widths[body[j].y + y] + RowCount(body, y, j + 1, body[j].y + y) == w;
      assert j == k;
    }
  }

  /**
   * The loop of place, run from a point i up to the first point that cannot
   * be written, ends with exactly the points before that one written and
   * the code Outcome names.
   */
  lemma {:induction false} PlaceRun(c: Contents, w: nat, h: nat, body: seq<Point>, color: Color, x: int, y: int, i: nat)
    requires Shaped(c, w, h) && i <= FirstStop(c, w, h, body, x, y, 0)
    ensures var k := FirstStop(c, w, h, body, x, y, 0);
      PlaceFrom(Paint(c, w, h, body, color, x, y, i), w, h, body, color, x, y, i, RowReached(c, w, body, y, i))
      == (Paint(c, w, h, body, color, x, y, k), Outcome(c, w, h, body, x, y, k))
    decreases |body| - i, 1
  {
    if i < FirstStop(c, w, h, body, x, y, 0) {
      PlaceRunNext(c, w, h, body, color, x, y, i);
    } else {
      PlaceStop(c, w, h, body, color, x, y);
    }
  }

  /** The step of PlaceRun at a point that is written. */
  lemma {:induction false} PlaceRunNext(c: Contents, w: nat, h: nat, body: seq<Point>, color: Color, x: int, y: int, i: nat)
    requires Shaped(c, w, h) && i < FirstStop(c, w, h, body, x, y, 0)
    ensures var k := FirstStop(c, w, h, body, x, y, 0);
      PlaceFrom(Paint(c, w, h, body, color, x, y, i), w, h, body, color, x, y, i, RowReached(c, w, body, y, i))
      == (Paint(c, w, h, body, color, x, y, k), Outcome(c, w, h, body, x, y, k))
    decreases |body| - i, 0
  {
    PlaceStep(c, w, h, body, color, x, y, i);
    PlaceRun(c, w, h, body, color, x, y, i + 1);
  }

  /** A writable point finds its cell empty: the loop writes it and moves on with the row test updated. */
  lemma PlaceStep(c: Contents, w: nat, h: nat, body: seq<Point>, color: Color, x: int, y: int, i: nat)
    requires Shaped(c, w, h) && i < FirstStop(c, w, h, body, x, y, 0)
    ensures PlaceFrom(Paint(c, w, h, body, color, x, y, i), w, h, body, color, x, y, i, RowReached(c, w, body, y, i))
      == PlaceFrom(Paint(c, w, h, body, color, x, y, i + 1), w, h, body, color, x, y, i + 1, RowReached(c, w, body, y, i + 1))
  {
    var ci := Paint(c, w, h, body, color, x, y, i);
    var q := Target(body[i], x, y);
    assert Writable(c, w, h, body, x, y, i);
    assert ci.grid[q.x][q.y] == None by {
      PaintCells(c, w, h, body, color, x, y, i);
      assert !Covers(body, x, y, i, q);
    }
    PaintWidths(c, w, h, body, color, x, y, i + 1);
    RowReachedNext(c, w, body, y, i);
  }

  /** At the first point that cannot be written the loop returns the code Outcome names. */
  lemma PlaceStop(c: Contents, w: nat, h: nat, body: seq<Point>, color: Color, x: int, y: int)
    requires Shaped(c, w, h)
    ensures var k := FirstStop(c, w, h, body, x, y, 0);
      PlaceFrom(Paint(c, w, h, body, color, x, y, k), w, h, body, color, x, y, k, RowReached(c, w, body, y, k))
      == (Paint(c, w, h, body, color, x, y, k), Outcome(c, w, h, body, x, y, k))
  {
    var k := FirstStop(c, w, h, body, x, y, 0);
    if k < |body| {
      PaintCells(c, w, h, body, color, x, y, k);
      assert !Writable(c, w, h, body, x, y, k);
    }
  }

  /**
   * place, stated without its loop: the live arrays end with the body points
   * before the first one that cannot be written painted in, and the code is
   * the one Outcome names.
   */
  lemma PlaceSpec(b: Board, p: Piece, x: int, y: int)
    requires b.Valid()
    ensures var k := FirstStop(b.cur, b.width, b.height, p.body, x, y, 0);
      var r := Place(b, p, x, y);
      r.board.cur == Paint(b.cur, b.width, b.height, p.body, p.color, x, y, k) &&
      r.result == Outcome(b.cur, b.width, b.height, p.body, x, y, k)
  {
    PlaceRun(b.cur, b.width, b.height, p.body, p.color, x, y, 0);
  }

  /** place writes the whole piece exactly when every body point is writable. */
  lemma PlaceSucceeds(b: Board, p: Piece, x: int, y: int)
    requires b.Valid()
    ensures Place(b, p, x, y).result.Placed() <==>
      forall i :: 0 <= i < |p.body| ==> Writable(b.cur, b.width, b.height, p.body, x, y, i)
  {
    PlaceSpec(b, p, x, y);
  }

  /**
   * Every body point before the one place stopped at (all of them on
   * success) has its cell painted with the piece colour, failure included.
   */
  lemma PlaceWrites(b: Board, p: Piece, x: int, y: int)
    requires b.Valid()
    ensures var r := Place(b, p, x, y).board;
      forall j :: 0 <= j < FirstStop(b.cur, b.width, b.height, p.body, x, y, 0) ==>
        r.At(p.body[j].x + x, p.body[j].y + y) == Some(p.color)
  {
    var k := FirstStop(b.cur, b.width, b.height, p.body, x, y, 0);
    var painted := Paint(b.cur, b.width, b.height, p.body, p.color, x, y, k);
    PlaceSpec(b, p, x, y);
    PaintCells(b.cur, b.width, b.height, p.body, p.color, x, y, k);
    forall j | 0 <= j < k
      ensures painted.grid[p.body[j].x + x][p.body[j].y + y] == Some(p.color)
    {
      var q := Target(p.body[j], x, y);
      assert InGrid(q, b.width, b.height) && Covers(p.body, x, y, k, q);
    }
  }

  /** A successful place paints exactly the cells the body lands on and leaves the others alone. */
  lemma PlacedCells(b: Board, p: Piece, x: int, y: int)
    requires b.Valid() && Place(b, p, x, y).result.Placed()
    ensures var r := Place(b, p, x, y).board;
      forall q :: InGrid(q, b.width, b.height) ==>
        r.At(q.x, q.y) == if Covers(p.body, x, y, |p.body|, q) then Some(p.color) else b.At(q.x, q.y)
  {
    PlaceSpec(b, p, x, y);
    PaintCells(b.cur, b.width, b.height, p.body, p.color, x, y, |p.body|);
  }

  /** A successful place adds to each row's count the number of body points in that row. */
  lemma PlacedWidths(b: Board, p: Piece, x: int, y: int)
    requires b.Valid() && Place(b, p, x, y).result.Placed()
    ensures var r := Place(b, p, x, y).board;
      forall row :: 0 <= row < b.height ==> r.RowWidth(row) == b.RowWidth(row) + RowCount(p.body, y, |p.body|, row)
  {
    PlaceSpec(b, p, x, y);
    PaintWidths(b.cur, b.width, b.height, p.body, p.color, x, y, |p.body|);
  }

  /** After a successful place every body point is on the board, below its column's new height. */
  lemma PlacedUnderHeights(b: Board, p: Piece, x: int, y: int)
    requires b.Valid() && Place(b, p, x, y).result.Placed()
    ensures var r := Place(b, p, x, y).board;
      forall j :: 0 <= j < |p.body| ==>
        InGrid(Target(p.body[j], x, y), b.width, b.height) && r.ColumnHeight(p.body[j].x + x) >= p.body[j].y + y + 1
  {
    PlaceSpec(b, p, x, y);
    PaintHeightsRise(b.cur, b.width, b.height, p.body, p.color, x, y, |p.body|);
  }

  /**
   * After a successful place each column's height is its old one or one
   * past a body point in that column, and never lower than before.
   */
  lemma PlacedHeights(b: Board, p: Piece, x: int, y: int)
    requires b.Valid() && Place(b, p, x, y).result.Placed()
    ensures var r := Place(b, p, x, y).board;
      forall cx :: 0 <= cx < b.width ==>
        r.ColumnHeight(cx) >= b.ColumnHeight(cx) &&
        (r.ColumnHeight(cx) == b.ColumnHeight(cx) ||
         exists j :: 0 <= j < |p.body| && p.body[j].x + x == cx && r.ColumnHeight(cx) == p.body[j].y + y + 1)
  {
    PlaceSpec(b, p, x, y);
    PaintHeightsRise(b.cur, b.width, b.height, p.body, p.color, x, y, |p.body|);
    PaintHeightsFrom(b.cur, b.width, b.height, p.body, p.color, x, y, |p.body|);
  }

  /** A normalised piece placed in full lies, box and all, inside the board. */
  lemma PlacedInside(b: Board, p: Piece, x: int, y: int)
    requires b.Valid() && Normalized(p) && Place(b, p, x, y).result.Placed()
    ensures 0 <= x && x + p.Width() <= b.width && 0 <= y && y + p.Height() <= b.height
  {
    PlacedUnderHeights(b, p, x, y);
    NormalizedTouches(p);
    var i0 :| 0 <= i0 < |p.body| && p.body[i0].x == 0;
    var i1 :| 0 <= i1 < |p.body| && p.body[i1].x == p.Width() - 1;
    var j0 :| 0 <= j0 < |p.body| && p.body[j0].y == 0;
    var j1 :| 0 <= j1 < |p.body| && p.body[j1].y == p.Height() - 1;
    assert InGrid(Target(p.body[i0], x, y), b.width, b.height) && InGrid(Target(p.body[i1], x, y), b.width, b.height);
    assert InGrid(Target(p.body[j0], x, y), b.width, b.height) && InGrid(Target(p.body[j1], x, y), b.width, b.height);
  }

  /**
   * A failed place reports PLACE_OUT_BOUNDS only for a body point off the
   * board and PLACE_BAD only for a point on a filled cell or on the cell of
   * an earlier point; a piece wholly on the board is never out of bounds.
   */
  lemma PlaceFails(b: Board, p: Piece, x: int, y: int)
    requires b.Valid()
    ensures Place(b, p, x, y).result == OutBounds ==>
      exists i :: 0 <= i < |p.body| && !InGrid(Target(p.body[i], x, y), b.width, b.height)
    ensures Place(b, p, x, y).result == Bad ==>
      (exists i :: 0 <= i < |p.body| && InGrid(Target(p.body[i], x, y), b.width, b.height) &&
         !Writable(b.cur, b.width, b.height, p.body, x, y, i))
    ensures (forall i :: 0 <= i < |p.body| ==> InGrid(Target(p.body[i], x, y), b.width, b.height)) ==>
      Place(b, p, x, y).result != OutBounds
  {
    var k := FirstStop(b.cur, b.width, b.height, p.body, x, y, 0);
    PlaceSpec(b, p, x, y);
    if k < |p.body| {
      assert !Writable(b.cur, b.width, b.height, p.body, x, y, k);
    }
  }

  /* clearRows */

  /** A grid of w columns of h cells each. */
  predicate Columns(g: seq<seq<Cell>>, w: nat, h: nat) {
    |g| == w && forall x :: 0 <= x < w ==> |g[x]| == h
  }

  /** Row r is empty in every column. */
  predicate RowEmpty(g: seq<seq<Cell>>, h: nat, r: nat)
    requires Columns(g, |g|, h) && r < h
  {
    forall x :: 0 <= x < |g| ==> g[x][r] == None
  }

  /** Row r of g holds, column by column, what row r0 of g0 holds. */
  predicate RowCopy(g: seq<seq<Cell>>, h: nat, r: nat, g0: seq<seq<Cell>>, r0: nat)
    requires Columns(g, |g|, h) && Columns(g0, |g|, h) && r < h && r0 < h
  {
    forall x :: 0 <= x < |g| ==> g[x][r] == g0[x][r0]
  }

  /** The full-row branch: empty row `top` in every column. */
  function EmptyRow(g: seq<seq<Cell>>, h: nat, top: nat): (g': seq<seq<Cell>>)
    requires Columns(g, |g|, h) && top < h
    ensures Columns(g', |g|, h)
    ensures forall x :: 0 <= x < |g| ==> g'[x] == g[x][top := None]
  {
    seq(|g|, x requires 0 <= x < |g| => g[x][top := None])
  }

  /** The move branch: in every column, empty cell i and then put its old content at `top`. */
  function MoveRow(g: seq<seq<Cell>>, h: nat, i: nat, top: nat): (g': seq<seq<Cell>>)
    requires Columns(g, |g|, h) && top <= i < h
    ensures Columns(g', |g|, h)
    ensures forall x :: 0 <= x < |g| ==> g'[x] == g[x][i := None][top := g[x][i]]
  {
    seq(|g|, x requires 0 <= x < |g| => g[x][i := None][top := g[x][i]])
  }

  /**
   * The loop of clearRows from row i on, with `top` the next row to fill and
   * `cleared` the full rows met so far. A full row empties row `top` (not
   * row i) and zeroes row i's count; an empty row ends the scan; any other
   * row moves down to `top`.
   */
  function ClearFrom(g: seq<seq<Cell>>, wd: seq<int>, w: nat, h: nat, i: nat, top: nat, cleared: nat)
    : (r: (seq<seq<Cell>>, seq<int>, nat))
    requires Columns(g, w, h) && |wd| == h && top <= i <= h
    ensures Columns(r.0, w, h) && |r.1| == h
    decreases h - i
  {
    if i == h then (g, wd, cleared)
    else if wd[i] == w then ClearFrom(EmptyRow(g, h, top), wd[i := 0], w, h, i + 1, top, cleared + 1)
    else if wd[i] == 0 then (g, wd, cleared)
    else ClearFrom(MoveRow(g, h, i, top), wd[i := 0][top := wd[i]], w, h, i + 1, top + 1, cleared)
  }

  /**
   * clearRows(): compact the rows, lower every column height by the number
   * of full rows (never below 0) and report whether any row was full. The
   * backup is untouched when a place has snapshotted it; otherwise Java's
   * backup shares the live arrays and changes with them.
   */
  function ClearRows(b: Board): (r: (Board, bool))
    requires b.Valid()
    ensures r.0.Valid() && r.0.width == b.width && r.0.height == b.height
    ensures !r.0.committed && r.0.pending == b.pending
    ensures b.pending ==> r.0.backup == b.backup
  {
    var (g, wd, cleared) := ClearFrom(b.cur.grid, b.cur.widths, b.width, b.height, 0, 0, 0);
    var c := Contents(g, wd, seq(b.width, x requires 0 <= x < b.width => Max(b.cur.heights[x] - cleared, 0)));
    (b.(cur := c, committed := false, backup := if b.pending then b.backup else c), cleared > 0)
  }

  function Max(a: int, b: int): (m: int)
    ensures m >= a && m >= b && (m == a || m == b)
  {
    if a >= b then a else b
  }

  /** The row the scan of clearRows stops at: the first from i on with a count of 0 that is not full, or h. */
  function ScanEnd(wd: seq<int>, w: nat, i: nat): (e: nat)
    requires i <= |wd|
    ensures i <= e <= |wd|
    ensures forall j :: i <= j < e ==> wd[j] == w || wd[j] != 0
    ensures e < |wd| ==> wd[e] != w && wd[e] == 0
    decreases |wd| - i
  {
    if i == |wd| || (wd[i] != w && wd[i] == 0) then i else ScanEnd(wd, w, i + 1)
  }

  /** The rows below i that are not full, bottom to top. */
  function Kept(wd: seq<int>, w: nat, i: nat): (ks: seq<nat>)
    requires i <= |wd|
    ensures |ks| <= i
    ensures forall m :: 0 <= m < |ks| ==> ks[m] < i && wd[ks[m]] != w
  {
    if i == 0 then [] else Kept(wd, w, i - 1) + (if wd[i - 1] != w then [i - 1] else [])
  }

  /**
   * The state of clearRows' loop before row i, against the arrays it
   * started from: the kept rows below i sit at 0 .. top - 1 in order with
   * their counts, the rows top .. i - 1 have count 0 and are empty or are a
   * full row left where it was, and the rows from i on are untouched.
   */
  predicate ClearState(g0: seq<seq<Cell>>, wd0: seq<int>, w: nat, h: nat, g: seq<seq<Cell>>, wd: seq<int>, i: nat, top: nat, cleared: nat)
    requires Columns(g0, w, h) && |wd0| == h && Columns(g, w, h) && |wd| == h && i <= h
  {
    var ks := Kept(wd0, w, i);
    top == |ks| && cleared == i - top &&
    (forall r :: 0 <= r < top ==> wd[r] == wd0[ks[r]] && RowCopy(g, h, r, g0, ks[r])) &&
    (forall r :: top <= r < i ==> wd[r] == 0 && (RowEmpty(g, h, r) || (wd0[r] == w && RowCopy(g, h, r, g0, r)))) &&
    (forall r :: i <= r < h ==> wd[r] == wd0[r] && RowCopy(g, h, r, g0, r))
  }

  /** A full row i keeps the loop state: row `top` is emptied and row i is left where it is with count 0. */
  lemma ClearFullStep(g0: seq<seq<Cell>>, wd0: seq<int>, w: nat, h: nat, g: seq<seq<Cell>>, wd: seq<int>, i: nat, top: nat, cleared: nat)
    requires Columns(g0, w, h) && |wd0| == h && Columns(g, w, h) && |wd| == h && i < h
    requires ClearState(g0, wd0, w, h, g, wd, i, top, cleared) && wd0[i] == w
    ensures top <= i
    ensures ClearState(g0, wd0, w, h, EmptyRow(g, h, top), wd[i := 0], i + 1, top, cleared + 1)
  {
    var g' := EmptyRow(g, h, top);
    var wd' := wd[i := 0];
    var ks := Kept(wd0, w, i);
    assert Kept(wd0, w, i + 1) == ks;
    forall r | 0 <= r < top
      ensures wd'[r] == wd0[ks[r]] && RowCopy(g', h, r, g0, ks[r])
    {
      assert RowCopy(g, h, r, g0, ks[r]);
    }
    forall r | top <= r < i + 1
      ensures wd'[r] == 0 && (RowEmpty(g', h, r) || (wd0[r] == w && RowCopy(g', h, r, g0, r)))
    {
      if r == top {
        assert RowEmpty(g', h, r);
      } else if r < i {
        assert RowEmpty(g, h, r) || (wd0[r] == w && RowCopy(g, h, r, g0, r));
      } else {
        assert RowCopy(g, h, r, g0, r);
      }
    }
    forall r | i + 1 <= r < h
      ensures wd'[r] == wd0[r] && RowCopy(g', h, r, g0, r)
    {
      assert RowCopy(g, h, r, g0, r);
    }
  }

  /** Any other scanned row moves down to `top`, which becomes the next kept row. */
  lemma ClearMoveStep(g0: seq<seq<Cell>>, wd0: seq<int>, w: nat, h: nat, g: seq<seq<Cell>>, wd: seq<int>, i: nat, top: nat, cleared: nat)
    requires Columns(g0, w, h) && |wd0| == h && Columns(g, w, h) && |wd| == h && i < h
    requires ClearState(g0, wd0, w, h, g, wd, i, top, cleared) && wd0[i] != w
    ensures top <= i
    ensures ClearState(g0, wd0, w, h, MoveRow(g, h, i, top), wd[i := 0][top := wd[i]], i + 1, top + 1, cleared)
  {
    var g' := MoveRow(g, h, i, top);
    var wd' := wd[i := 0][top := wd[i]];
    var ks := Kept(wd0, w, i);
    var ks' := Kept(wd0, w, i + 1);
    assert ks' == ks + [i];
    forall r | 0 <= r < top + 1
      ensures wd'[r] == wd0[ks'[r]] && RowCopy(g', h, r, g0, ks'[r])
    {
      if r < top {
        assert RowCopy(g, h, r, g0, ks[r]);
      } else {
        assert RowCopy(g, h, i, g0, i);
      }
    }
    forall r | top + 1 <= r < i + 1
      ensures wd'[r] == 0 && (RowEmpty(g', h, r) || (wd0[r] == w && RowCopy(g', h, r, g0, r)))
    {
      if r < i {
        assert RowEmpty(g, h, r) || (wd0[r] == w && RowCopy(g, h, r, g0, r));
      } else {
        assert RowEmpty(g', h, r);
      }
    }
    forall r | i + 1 <= r < h
      ensures wd'[r] == wd0[r] && RowCopy(g', h, r, g0, r)
    {
      assert RowCopy(g, h, r, g0, r);
    }
  }

  /** A full row before the end of the scan: the loop goes on from the state after it. */
  lemma ClearFromFull(g: seq<seq<Cell>>, wd: seq<int>, w: nat, h: nat, i: nat, top: nat, cleared: nat)
    requires Columns(g, w, h) && |wd| == h && top <= i < h && wd[i] == w
    ensures ClearFrom(g, wd, w, h, i, top, cleared) == ClearFrom(EmptyRow(g, h, top), wd[i := 0], w, h, i + 1, top, cleared + 1)
  {
  }

  /** A row that is neither full nor empty: the loop goes on from the state after it. */
  lemma ClearFromMove(g: seq<seq<Cell>>, wd: seq<int>, w: nat, h: nat, i: nat, top: nat, cleared: nat)
    requires Columns(g, w, h) && |wd| == h && top <= i < h && wd[i] != w && wd[i] != 0
    ensures ClearFrom(g, wd, w, h, i, top, cleared) == ClearFrom(MoveRow(g, h, i, top), wd[i := 0][top := wd[i]], w, h, i + 1, top + 1, cleared)
  {
  }

  /** At the top of the board or at an empty row the loop stops. */
  lemma ClearFromStop(g: seq<seq<Cell>>, wd: seq<int>, w: nat, h: nat, i: nat, top: nat, cleared: nat)
    requires Columns(g, w, h) && |wd| == h && top <= i <= h && (i == h || (wd[i] != w && wd[i] == 0))
    ensures ClearFrom(g, wd, w, h, i, top, cleared) == (g, wd, cleared)
  {
  }

  /** Run from a state before the end of the scan, the loop ends in the state at the end of the scan. */
  lemma {:induction false} ClearRun(g0: seq<seq<Cell>>, wd0: seq<int>, w: nat, h: nat, g: seq<seq<Cell>>, wd: seq<int>, i: nat, top: nat, cleared: nat)
    requires Columns(g0, w, h) && |wd0| == h && Columns(g, w, h) && |wd| == h
    requires i <= ScanEnd(wd0, w, 0) && ClearState(g0, wd0, w, h, g, wd, i, top, cleared)
    ensures top <= i
    ensures var e := ScanEnd(wd0, w, 0);
      var r := ClearFrom(g, wd, w, h, i, top, cleared);
      ClearState(g0, wd0, w, h, r.0, r.1, e, |Kept(wd0, w, e)|, r.2)
    decreases h - i, 1
  {
    var e := ScanEnd(wd0, w, 0);
    if i < e {
      if wd0[i] == w {
        ClearRunFull(g0, wd0, w, h, g, wd, i, top, cleared);
      } else {
        ClearRunMove(g0, wd0, w, h, g, wd, i, top, cleared);
      }
    } else {
      assert i == e && top == |Kept(wd0, w, e)|;
      assert i == h || (wd[i] != w && wd[i] == 0) by {
        if i < h {
          assert wd[i] == wd0[i];
        }
      }
      ClearFromStop(g, wd, w, h, i, top, cleared);
    }
  }

  /** The step of ClearRun at a full row. */
  lemma {:induction false} ClearRunFull(g0: seq<seq<Cell>>, wd0: seq<int>, w: nat, h: nat, g: seq<seq<Cell>>, wd: seq<int>, i: nat, top: nat, cleared: nat)
    requires Columns(g0, w, h) && |wd0| == h && Columns(g, w, h) && |wd| == h
    requires i < ScanEnd(wd0, w, 0) && ClearState(g0, wd0, w, h, g, wd, i, top, cleared) && wd0[i] == w
    ensures top <= i
    ensures var e := ScanEnd(wd0, w, 0);
      var r := ClearFrom(g, wd, w, h, i, top, cleared);
      ClearState(g0, wd0, w, h, r.0, r.1, e, |Kept(wd0, w, e)|, r.2)
    decreases h - i, 0
  {
    assert wd[i] == wd0[i];
    ClearFullStep(g0, wd0, w, h, g, wd, i, top, cleared);
    ClearFromFull(g, wd, w, h, i, top, cleared);
    ClearRun(g0, wd0, w, h, EmptyRow(g, h, top), wd[i := 0], i + 1, top, cleared + 1);
  }

  /** The step of ClearRun at a row that is kept. */
  lemma {:induction false} ClearRunMove(g0: seq<seq<Cell>>, wd0: seq<int>, w: nat, h: nat, g: seq<seq<Cell>>, wd: seq<int>, i: nat, top: nat, cleared: nat)
    requires Columns(g0, w, h) && |wd0| == h && Columns(g, w, h) && |wd| == h
    requires i < ScanEnd(wd0, w, 0) && ClearState(g0, wd0, w, h, g, wd, i, top, cleared) && wd0[i] != w
    ensures top <= i
    ensures var e := ScanEnd(wd0, w, 0);
      var r := ClearFrom(g, wd, w, h, i, top, cleared);
      ClearState(g0, wd0, w, h, r.0, r.1, e, |Kept(wd0, w, e)|, r.2)
    decreases h - i, 0
  {
    assert wd[i] == wd0[i];
    ClearMoveStep(g0, wd0, w, h, g, wd, i, top, cleared);
    ClearFromMove(g, wd, w, h, i, top, cleared);
    ClearRun(g0, wd0, w, h, MoveRow(g, h, i, top), wd[i := 0][top := wd[i]], i + 1, top + 1, cleared);
  }

  /** Fewer rows are kept below i than there are rows exactly when one of them is full. */
  lemma {:induction false} KeptFull(wd: seq<int>, w: nat, i: nat)
    requires i <= |wd|
    ensures |Kept(wd, w, i)| < i <==> exists j :: 0 <= j < i && wd[j] == w
  {
    if i > 0 {
      KeptFull(wd, w, i - 1);
      if |Kept(wd, w, i - 1)| < i - 1 {
        var j :| 0 <= j < i - 1 && wd[j] == w;
      }
    }
  }

  /** With no full row below i every row below i is kept, in place. */
  lemma {:induction false} KeptAll(wd: seq<int>, w: nat, i: nat)
    requires i <= |wd| && forall j :: 0 <= j < i ==> wd[j] != w
    ensures |Kept(wd, w, i)| == i && forall m :: 0 <= m < i ==> Kept(wd, w, i)[m] == m
  {
    if i > 0 {
      KeptAll(wd, w, i - 1);
    }
  }

  /** The whole loop of clearRows ends in the state at the end of its scan. */
  lemma ClearRowsState(b: Board)
    requires b.Valid()
    ensures var e := ScanEnd(b.cur.widths, b.width, 0);
      var r := ClearFrom(b.cur.grid, b.cur.widths, b.width, b.height, 0, 0, 0);
      ClearState(b.cur.grid, b.cur.widths, b.width, b.height, r.0, r.1, e, |Kept(b.cur.widths, b.width, e)|, r.2)
  {
    var g := b.cur.grid;
    forall r | 0 <= r < b.height
      ensures RowCopy(g, b.height, r, g, r)
    {
    }
    ClearRun(g, b.cur.widths, b.width, b.height, g, b.cur.widths, 0, 0, 0);
  }

  /**
   * clearRows reports true exactly when a full row lies below the first
   * empty row, and lowers every column by the number of such rows, to no
   * less than 0.
   */
  lemma ClearRowsResult(b: Board)
    requires b.Valid()
    ensures var e := ScanEnd(b.cur.widths, b.width, 0);
      var (r, any) := ClearRows(b);
      (any <==> exists j :: 0 <= j < e && b.cur.widths[j] == b.width) &&
      forall x :: 0 <= x < b.width ==>
        r.ColumnHeight(x) == Max(b.ColumnHeight(x) - (e - |Kept(b.cur.widths, b.width, e)|), 0)
  {
    var e := ScanEnd(b.cur.widths, b.width, 0);
    ClearRowsState(b);
    KeptFull(b.cur.widths, b.width, e);
  }

  /**
   * The rows below the first empty row that are not full end up at the
   * bottom of the board, in their old order, with their cells and counts.
   */
  lemma ClearRowsKept(b: Board)
    requires b.Valid()
    ensures var ks := Kept(b.cur.widths, b.width, ScanEnd(b.cur.widths, b.width, 0));
      var r := ClearRows(b).0;
      forall m :: 0 <= m < |ks| ==>
        ks[m] < b.height && r.RowWidth(m) == b.RowWidth(ks[m]) &&
        forall x :: 0 <= x < b.width ==> r.At(x, m) == b.At(x, ks[m])
  {
    ClearRowsState(b);
  }

  /**
   * Above the kept rows, up to the first empty row, every row has count 0
   * and is either emptied or is a full row left where it was: only the
   * full row met while no row had yet been kept above it is emptied, since
   * each full row empties the next free row instead of itself.
   */
  lemma ClearRowsVacated(b: Board)
    requires b.Valid()
    ensures var e := ScanEnd(b.cur.widths, b.width, 0);
      var ks := Kept(b.cur.widths, b.width, e);
      var r := ClearRows(b).0;
      forall row :: |ks| <= row < e ==>
        r.RowWidth(row) == 0 &&
        ((forall x :: 0 <= x < b.width ==> r.At(x, row) == None) ||
         (b.RowWidth(row) == b.width && forall x :: 0 <= x < b.width ==> r.At(x, row) == b.At(x, row)))
  {
    var e := ScanEnd(b.cur.widths, b.width, 0);
    var ks := Kept(b.cur.widths, b.width, e);
    var r := ClearFrom(b.cur.grid, b.cur.widths, b.width, b.height, 0, 0, 0);
    ClearRowsState(b);
    forall row | |ks| <= row < e
      ensures RowEmpty(r.0, b.height, row) || (b.cur.widths[row] == b.width && RowCopy(r.0, b.height, row, b.cur.grid, row))
    {
    }
  }

  /** The first empty row and every row above it are untouched. */
  lemma ClearRowsAbove(b: Board)
    requires b.Valid()
    ensures var e := ScanEnd(b.cur.widths, b.width, 0);
      var r := ClearRows(b).0;
      forall row :: e <= row < b.height ==>
        r.RowWidth(row) == b.RowWidth(row) && forall x :: 0 <= x < b.width ==> r.At(x, row) == b.At(x, row)
  {
    var e := ScanEnd(b.cur.widths, b.width, 0);
    var r := ClearFrom(b.cur.grid, b.cur.widths, b.width, b.height, 0, 0, 0);
    ClearRowsState(b);
    forall row | e <= row < b.height
      ensures RowCopy(r.0, b.height, row, b.cur.grid, row)
    {
    }
  }

  /** With no full row clearRows changes no cell, count or height and reports false. */
  lemma ClearRowsNoFull(b: Board)
    requires b.Valid() && forall y :: 0 <= y < b.height ==> b.cur.widths[y] != b.width
    ensures ClearRows(b).0.cur == b.cur && !ClearRows(b).1
  {
    var e := ScanEnd(b.cur.widths, b.width, 0);
    var g0 := b.cur.grid;
    var r := ClearFrom(g0, b.cur.widths, b.width, b.height, 0, 0, 0);
    ClearRowsState(b);
    KeptAll(b.cur.widths, b.width, e);
    forall x | 0 <= x < b.width
      ensures r.0[x] == g0[x]
    {
      forall row | 0 <= row < b.height
        ensures r.0[x][row] == g0[x][row]
      {
        if row < e {
          assert Kept(b.cur.widths, b.width, e)[row] == row;
          assert RowCopy(r.0, b.height, row, g0, row);
        } else {
          assert RowCopy(r.0, b.height, row, g0, row);
        }
      }
    }
    assert r.0 == g0;
    assert r.1 == b.cur.widths;
  }

  /**
   * The smallest board on which a full row is left in place: two full rows
   * of one cell each. The first empties row 0; the second empties row 0
   * again, so row 1 keeps its cell while its count drops to 0.
   */
  lemma ClearRowsLeavesFullRow()
    ensures var b := Board(1, 2, Contents([[Some(Red), Some(Red)]], [1, 1], [2]), false, EmptyContents(1, 2), true);
      b.Valid() && ClearRows(b) == (b.(cur := Contents([[None, Some(Red)]], [0, 0], [0]), committed := false), true)
  {
    var g: seq<seq<Cell>> := [[Some(Red), Some(Red)]];
    var g': seq<seq<Cell>> := [[None, Some(Red)]];
    assert g[0][0 := None] == g'[0] && g'[0][0 := None] == g'[0];
    assert EmptyRow(g, 2, 0) == g';
    assert EmptyRow(g', 2, 0) == g';
    assert [1, 1][0 := 0] == [0, 1] && [0, 1][1 := 0] == [0, 0];
    assert ClearFrom(g', [0, 0], 1, 2, 2, 0, 2) == (g', [0, 0], 2);
    assert ClearFrom(g', [0, 1], 1, 2, 1, 0, 1) == (g', [0, 0], 2);
    assert ClearFrom(g, [1, 1], 1, 2, 0, 0, 0) == (g', [0, 0], 2);
    var b := Board(1, 2, Contents(g, [1, 1], [2]), false, EmptyContents(1, 2), true);
    assert b.Valid();
    var c := Contents(g', [0, 0], seq(1, x requires 0 <= x < 1 => Max(b.cur.heights[x] - 2, 0)));
    assert c.heights == [0];
    assert ClearRows(b).0 == b.(cur := c, committed := false);
  }

  /* undo and commit */

  /**
   * undo(): an uncommitted board goes back to its backup arrays. The
   * committed flag stays as it is: Java's undo does not set it.
   */
  function Undo(b: Board): (r: Board)
    requires b.Valid()
    ensures r.Valid() && r.width == b.width && r.height == b.height
    ensures r.committed == b.committed && !r.pending && r.cur == r.backup
    ensures b.committed ==> r == b
    ensures !b.committed ==> r.cur == b.backup && r.backup == b.backup
  {
    if b.committed then b else b.(cur := b.backup, pending := false)
  }

  /** commit(): the live arrays become the backup and the board is committed. */
  function Commit(b: Board): (r: Board)
    requires b.Valid()
    ensures r.Valid() && r.width == b.width && r.height == b.height
    ensures r.committed && !r.pending && r.cur == b.cur && r.backup == b.cur
  {
    b.(backup := b.cur, committed := true, pending := false)
  }

  /** undo after place gives back the arrays from before the place, whatever place returned. */
  lemma UndoPlace(b: Board, p: Piece, x: int, y: int)
    requires b.Valid()
    ensures Undo(Place(b, p, x, y).board).cur == b.cur
  {
  }

  /** undo after place and clearRows gives back the arrays from before the place. */
  lemma UndoPlaceClear(b: Board, p: Piece, x: int, y: int)
    requires b.Valid()
    ensures Undo(ClearRows(Place(b, p, x, y).board).0).cur == b.cur
  {
  }

  /** A second undo changes nothing. */
  lemma UndoTwice(b: Board)
    requires b.Valid()
    ensures Undo(Undo(b)) == Undo(b)
  {
  }

  /** Once committed, undo cannot go back past the commit. */
  lemma CommitUndo(b: Board)
    requires b.Valid()
    ensures Undo(Commit(b)) == Commit(b)
  {
  }

  /* dropHeight and getMaxHeight */

  /**
   * The loop of dropHeight over skirt entries 0 .. k - 1: the largest of -1
   * and heights[x + i] - skirt[i].
   */
  function DropScan(heights: seq<int>, skirt: seq<int>, x: int, k: nat): (y: int)
    requires 0 <= x && x + |skirt| <= |heights| && k <= |skirt|
    ensures y >= -1
    ensures forall i :: 0 <= i < k ==> y >= heights[x + i] - skirt[i]
    ensures y == -1 || exists i :: 0 <= i < k && y == heights[x + i] - skirt[i]
  {
    if k == 0 then -1
    else
      var prev := DropScan(heights, skirt, x, k - 1);
      var cand := heights[x + k - 1] - skirt[k - 1];
      if prev < cand then cand else prev
  }

  /**
   * dropHeight(piece, x): the lowest origin row, never below -1, at which
   * every skirt column clears its board column's height, reached by one of
   * the columns unless it is -1.
   */
  function DropHeight(b: Board, p: Piece, x: int): (y: int)
    requires b.Valid() && p.Valid() && 0 <= x && x + p.Width() <= b.width
    ensures y >= -1
    ensures forall i :: 0 <= i < p.Width() ==> y >= b.ColumnHeight(x + i) - p.Skirt()[i]
    ensures y == -1 || exists i :: 0 <= i < p.Width() && y == b.ColumnHeight(x + i) - p.Skirt()[i]
  {
    DropScan(b.cur.heights, p.Skirt(), x, |p.Skirt()|)
  }

  /**
   * Dropped at dropHeight, every body point of a normalised piece sits at
   * or above its column's height, so it overlaps no cell below the height.
   */
  lemma DropClears(b: Board, p: Piece, x: int)
    requires b.Valid() && Normalized(p) && 0 <= x && x + p.Width() <= b.width
    ensures forall i :: 0 <= i < |p.body| ==>
      0 <= p.body[i].x < p.Width() && p.body[i].y + DropHeight(b, p, x) >= b.ColumnHeight(x + p.body[i].x)
  {
    NormalizedBox(p);
    SkirtLowest(p);
    var y := DropHeight(b, p, x);
    forall i | 0 <= i < |p.body|
      ensures 0 <= p.body[i].x < p.Width() && p.body[i].y + y >= b.ColumnHeight(x + p.body[i].x)
    {
      var c := p.body[i].x;
      assert 0 <= c < p.Width() && c - Low(p.body, X) == c;
      assert p.Skirt()[c] <= p.body[i].y;
      assert y >= b.ColumnHeight(x + c) - p.Skirt()[c];
    }
  }

  /** The loop of getMaxHeight over columns 0 .. k - 1, starting from 0. */
  function MaxScan(heights: seq<int>, k: nat): (m: int)
    requires k <= |heights|
    ensures m >= 0
    ensures forall x :: 0 <= x < k ==> m >= heights[x]
    ensures m == 0 || exists x :: 0 <= x < k && m == heights[x]
  {
    if k == 0 then 0
    else
      var prev := MaxScan(heights, k - 1);
      if heights[k - 1] > prev then heights[k - 1] else prev
  }

  /** getMaxHeight(): the largest column height, or 0. */
  function MaxHeight(b: Board): (m: int)
    requires b.Valid()
    ensures forall x :: 0 <= x < b.width ==> m >= b.ColumnHeight(x)
    ensures exists x :: 0 <= x < b.width && m == b.cur.heights[x]
  {
    var m := MaxScan(b.cur.heights, b.width);
    assert b.ColumnHeight(0) >= 0;
    assert m == 0 ==> m == b.ColumnHeight(0);
    m
  }
}

=== FILE: catalog.dfy ===
/**
 * The catalogue of the seven tetrominoes: literal coordinate lists, their
 * parsing into points, and the closed rotation cycle built from each first
 * orientation (src/Piece.java, getPieces / setRotationCycle / parsePoints).
 *
 * A Java Piece's `next` link becomes a position in its cycle: the piece at
 * index i of a cycle of length n turns into the piece at (i + 1) % n.
 */
module Catalog {
  import opened Pieces

  /** parsePoints over the already-split integers: consecutive pairs become points, an odd last value is dropped. */
  function ParsePoints(v: seq<int>): (pts: seq<Point>)
    ensures |pts| == |v| / 2
  {
    seq(|v| / 2, i requires 0 <= i < |v| / 2 => Point(v[2 * i], v[2 * i + 1]))
  }

  /** The inverse direction: the coordinates of a point list, x before y. */
  function Flatten(pts: seq<Point>): (v: seq<int>)
    ensures |v| == 2 * |pts|
  {
    if |pts| == 0 then [] else [pts[0].x, pts[0].y] + Flatten(pts[1..])
  }

  /** Point i of a parsed list is the pair (v[2i], v[2i+1]). */
  lemma ParsePointsPairs(v: seq<int>)
    ensures forall i :: 0 <= i < |v| / 2 ==> ParsePoints(v)[i] == Point(v[2 * i], v[2 * i + 1])
  {
  }

  /** Entry 2i of a flattened list is point i's x and entry 2i+1 its y. */
  lemma {:induction false} FlattenEntries(pts: seq<Point>)
    ensures forall i :: 0 <= i < |pts| ==> Flatten(pts)[2 * i] == pts[i].x && Flatten(pts)[2 * i + 1] == pts[i].y
  {
    if |pts| > 0 {
      FlattenEntries(pts[1..]);
      var v := Flatten(pts);
      assert v == [pts[0].x, pts[0].y] + Flatten(pts[1..]);
      forall i | 1 <= i < |pts|
        ensures v[2 * i] == pts[i].x && v[2 * i + 1] == pts[i].y
      {
        assert v[2 * i] == Flatten(pts[1..])[2 * (i - 1)];
        assert v[2 * i + 1] == Flatten(pts[1..])[2 * (i - 1) + 1];
        assert pts[1..][i - 1] == pts[i];
      }
    }
  }

  /** Parsing the coordinates of a point list gives the list back. */
  lemma ParseFlatten(pts: seq<Point>)
    ensures ParsePoints(Flatten(pts)) == pts
  {
    FlattenEntries(pts);
    var q := ParsePoints(Flatten(pts));
    assert forall i :: 0 <= i < |pts| ==> q[i] == pts[i];
  }

  /** Flattening parsed points gives back the input up to its even-length prefix. */
  lemma FlattenParse(v: seq<int>)
    ensures Flatten(ParsePoints(v)) == v[..2 * (|v| / 2)]
  {
    var pts := ParsePoints(v);
    FlattenEntries(pts);
    var f := Flatten(pts);
    forall k | 0 <= k < |f|
      ensures f[k] == v[k]
    {
      var i := k / 2;
      assert pts[i] == Point(v[2 * i], v[2 * i + 1]);
      if k % 2 == 0 {
        assert k == 2 * i && f[2 * i] == pts[i].x;
      } else {
        assert k == 2 * i + 1 && f[2 * i + 1] == pts[i].y;
      }
    }
  }

  /** `n` successive quarter turns of `p`. */
  function Turns(p: Piece, n: nat): (r: Piece)
    requires p.Valid()
    ensures r.Valid() && |r.body| == |p.body| && r.color == p.color
    decreases n
  {
    if n == 0 then p else Rotate(Turns(p, n - 1))
  }

  /** The turns of a normalised piece stay normalised and inside their box. */
  lemma {:induction false} TurnsNormalized(p: Piece, n: nat)
    requires Normalized(p)
    ensures Normalized(Turns(p, n)) && InBox(Turns(p, n))
    decreases n
  {
    if n == 0 {
      NormalizedBox(p);
    } else {
      TurnsNormalized(p, n - 1);
      RotateNormalized(Turns(p, n - 1));
      NormalizedBox(Turns(p, n));
    }
  }

  /** Turn n of `start` is shape-equal to `start` (both inside their boxes, as Java's table lookup needs). */
  ghost predicate ClosesAt(start: Piece, n: nat)
    requires start.Valid()
  {
    InBox(start) && InBox(Turns(start, n)) && Equals(Turns(start, n), start)
  }

  /** None of turns 1 .. k - 1 of `start` closes the cycle. */
  ghost predicate FreshTurns(start: Piece, k: nat)
    requires start.Valid()
  {
    forall i :: 1 <= i < k ==> !ClosesAt(start, i)
  }

  /**
   * The loop of setRotationCycle, counting the pieces it links: starting from
   * the k-th turn, the first turn shape-equal to `start` closes the cycle.
   * Four turns always do, so the loop stops.
   */
  function CycleLength(start: Piece, k: nat): (n: nat)
    requires Normalized(start)
    requires 1 <= k <= 4 && FreshTurns(start, k)
    ensures k <= n <= 4 && FreshTurns(start, n) && ClosesAt(start, n)
    decreases 4 - k
  {
    TurnsNormalized(start, 0);
    TurnsNormalized(start, k);
    if Equals(Turns(start, k), start) then k
    else
      assert k < 4 by {
        if k == 4 {
          FourTurnsIdentity(start);
          assert Turns(start, 4) == start;
          EqualsReflexive(start);
        }
      }
      FreshTurnsNext(start, k);
      CycleLength(start, k + 1)
  }

  /** The first n turns of `start`, turn i at index i. */
  function TurnSeq(start: Piece, n: nat): (s: seq<Piece>)
    requires start.Valid()
    ensures |s| == n
    ensures forall i :: 0 <= i < n ==> s[i] == Turns(start, i)
    decreases n
  {
    if n == 0 then [] else TurnSeq(start, n - 1) + [Turns(start, n - 1)]
  }

  /**
   * setRotationCycle: the pieces linked from `start`, in `next` order; the
   * piece at index i is `start` turned i times.
   */
  function RotationCycle(start: Piece): (cycle: seq<Piece>)
    requires Normalized(start)
    ensures 1 <= |cycle| <= 4
    ensures forall i :: 0 <= i < |cycle| ==> cycle[i] == Turns(start, i)
  {
    TurnSeq(start, CycleLength(start, 1))
  }

  /** Every entry of a cycle is a normalised orientation inside its box, the first being `start` itself. */
  lemma RotationCycleNormalized(start: Piece)
    requires Normalized(start)
    ensures RotationCycle(start)[0] == start
    ensures forall i :: 0 <= i < |RotationCycle(start)| ==> Normalized(RotationCycle(start)[i]) && InBox(RotationCycle(start)[i])
  {
    var cycle := RotationCycle(start);
    forall i | 0 <= i < |cycle|
      ensures Normalized(cycle[i]) && InBox(cycle[i])
    {
      assert cycle[i] == Turns(start, i);
      TurnsNormalized(start, i);
    }
  }

  /** Each entry of a cycle is the quarter turn of the entry before it. */
  lemma RotationCycleSteps(start: Piece)
    requires Normalized(start)
    ensures forall i :: 0 <= i < |RotationCycle(start)| - 1 ==>
      RotationCycle(start)[i].Valid() && RotationCycle(start)[i + 1] == Rotate(RotationCycle(start)[i])
  {
    var cycle := RotationCycle(start);
    forall i | 0 <= i < |cycle| - 1
      ensures cycle[i].Valid() && cycle[i + 1] == Rotate(cycle[i])
    {
      assert cycle[i + 1] == Turns(start, i + 1) && cycle[i] == Turns(start, i);
    }
  }

  /** The cycle is closed: the turn of its last entry is shape-equal to `start`. */
  lemma RotationCycleCloses(start: Piece)
    requires Normalized(start)
    ensures InBox(start)
    ensures Normalized(Rotate(RotationCycle(start)[|RotationCycle(start)| - 1]))
    ensures Equals(Rotate(RotationCycle(start)[|RotationCycle(start)| - 1]), start)
  {
    LastTurn(start);
    CycleCloses(start);
    TurnsNormalized(start, |RotationCycle(start)|);
  }

  /** The turn of a cycle's last entry is the next turn of `start`. */
  lemma LastTurn(start: Piece)
    requires Normalized(start)
    ensures Rotate(RotationCycle(start)[|RotationCycle(start)| - 1]) == Turns(start, |RotationCycle(start)|)
  {
    var cycle := RotationCycle(start);
    var n := |cycle|;
    assert cycle[n - 1] == Turns(start, n - 1);
  }

  /** The turn after the cycle's last entry closes it. */
  lemma CycleCloses(start: Piece)
    requires Normalized(start)
    ensures ClosesAt(start, |RotationCycle(start)|)
  {
    assert |RotationCycle(start)| == CycleLength(start, 1);
  }

  /** The cycle is minimal: no entry after the first is shape-equal to `start`. */
  lemma RotationCycleFresh(start: Piece)
    requires Normalized(start)
    ensures InBox(start)
    ensures forall i :: 1 <= i < |RotationCycle(start)| ==> InBox(RotationCycle(start)[i]) && !Equals(RotationCycle(start)[i], start)
  {
    NormalizedBox(start);
    var cycle := RotationCycle(start);
    var n := |cycle|;
    assert n == CycleLength(start, 1);
    forall i | 1 <= i < n
      ensures InBox(cycle[i]) && !Equals(cycle[i], start)
    {
      assert cycle[i] == Turns(start, i);
      TurnsNormalized(start, i);
      assert !ClosesAt(start, i);
    }
  }

  /** Extending the run of fresh turns by one that does not close the cycle. */
  lemma FreshTurnsNext(start: Piece, k: nat)
    requires start.Valid() && FreshTurns(start, k) && !ClosesAt(start, k)
    ensures FreshTurns(start, k + 1)
  {
    forall i | 1 <= i < k + 1
      ensures !ClosesAt(start, i)
    {
      if i == k {
      } else {
        assert FreshTurns(start, k);
      }
    }
  }

  /** The cycle length is the least positive number of turns that gives back a piece shape-equal to `start`. */
  lemma CycleLengthLeast(start: Piece, n: nat)
    requires Normalized(start) && 1 <= n
    requires FreshTurns(start, n) && ClosesAt(start, n)
    ensures |RotationCycle(start)| == n
  {
    var m := CycleLength(start, 1);
    assert |RotationCycle(start)| == m;
    FirstClosing(start, m, n);
  }

  /** Two turn counts that each close the cycle with no earlier closing turn are equal. */
  lemma FirstClosing(start: Piece, m: nat, n: nat)
    requires start.Valid()
    requires FreshTurns(start, m) && ClosesAt(start, m)
    requires FreshTurns(start, n) && ClosesAt(start, n)
    requires 1 <= m && 1 <= n
    ensures m == n
  {
  }

  /** The piece a cycle entry turns into: nextRotation as an index. */
  function NextIndex(cycle: seq<Piece>, i: nat): (j: nat)
    requires 0 <= i < |cycle|
    ensures j < |cycle|
    ensures i + 1 < |cycle| ==> j == i + 1
    ensures i + 1 == |cycle| ==> j == 0
  {
    (i + 1) % |cycle|
  }

  /** The literal coordinate lists of the seven tetrominoes and their colours, in catalogue order. */
  const Shapes: seq<(seq<int>, Color)> := [
    ([0, 0, 0, 1, 0, 2, 0, 3], Cyan),    // I
    ([0, 0, 0, 1, 0, 2, 1, 0], Orange),  // L
    ([0, 0, 1, 0, 1, 1, 1, 2], Blue),    // J
    ([0, 0, 1, 0, 1, 1, 2, 1], Green),   // S
    ([0, 1, 1, 1, 1, 0, 2, 0], Red),     // Z
    ([0, 0, 0, 1, 1, 0, 1, 1], Yellow),  // O
    ([0, 0, 1, 0, 1, 1, 2, 0], Purple)   // T
  ]

  /** The first orientation of catalogue piece `k`. */
  function FirstPiece(k: nat): (p: Piece)
    requires k < |Shapes|
  {
    Piece(ParsePoints(Shapes[k].0), Shapes[k].1)
  }

  /** How many orientations each catalogue piece has, in catalogue order. */
  const Orientations: seq<nat> := [2, 4, 4, 2, 2, 1, 4]

  /**
   * getPieces: for each of the seven tetrominoes, in catalogue order, its
   * rotation cycle; the first entry of each is the piece getPieces hands out,
   * every entry is normalised and each is the quarter turn of the one before.
   */
  function GetPieces(): (cycles: seq<seq<Piece>>)
    ensures |cycles| == 7
    ensures forall k :: 0 <= k < 7 ==> 1 <= |cycles[k]| == Orientations[k] && cycles[k][0] == FirstPiece(k)
    ensures forall k, i :: 0 <= k < 7 && 0 <= i < |cycles[k]| ==> Normalized(cycles[k][i])
    ensures forall k, i :: 0 <= k < 7 && 0 <= i < |cycles[k]| - 1 ==>
      cycles[k][i].Valid() && cycles[k][i + 1] == Rotate(cycles[k][i])
  {
    var cycles := seq(7, k requires 0 <= k < 7 => PieceCycle(k));
    assert forall k :: 0 <= k < 7 ==> cycles[k] == PieceCycle(k);
    cycles
  }

  /** The rotation cycle of catalogue piece `k`. */
  function PieceCycle(k: nat): (cycle: seq<Piece>)
    requires k < 7
    ensures 1 <= |cycle| == Orientations[k] && cycle[0] == FirstPiece(k)
    ensures forall i :: 0 <= i < |cycle| ==> Normalized(cycle[i])
    ensures forall i :: 0 <= i < |cycle| - 1 ==> cycle[i].Valid() && cycle[i + 1] == Rotate(cycle[i])
  {
    FirstPieceCycle(k);
    RotationCycleNormalized(FirstPiece(k));
    RotationCycleSteps(FirstPiece(k));
    RotationCycle(FirstPiece(k))
  }

  /*
   * Evaluating the catalogue: for four-point bodies the extremes, the turn
   * and shape equality reduce to arithmetic on the four points, which lets
   * the cycle of each literal tetromino be computed step by step.
   */

  function Min(a: int, b: int): int { if a < b then a else b }

  function Max(a: int, b: int): int { if a > b then a else b }

  /** The extent along `a` of a four-point body, written out. */
  function Extent4(pts: seq<Point>, a: Axis): int
    requires |pts| == 4
  {
    Max(Max(Coord(pts[0], a), Coord(pts[1], a)), Max(Coord(pts[2], a), Coord(pts[3], a)))
    - Min(Min(Coord(pts[0], a), Coord(pts[1], a)), Min(Coord(pts[2], a), Coord(pts[3], a))) + 1
  }

  lemma ExtentFour(p: Piece)
    requires |p.body| == 4
    ensures p.Width() == Extent4(p.body, X) && p.Height() == Extent4(p.body, Y)
  {
    LowFour(p.body, X);
    LowFour(p.body, Y);
    HighFour(p.body, X);
    HighFour(p.body, Y);
  }

  lemma LowFour(pts: seq<Point>, a: Axis)
    requires |pts| == 4
    ensures Low(pts, a) == Min(Min(Coord(pts[0], a), Coord(pts[1], a)), Min(Coord(pts[2], a), Coord(pts[3], a)))
  {
    var m := Low(pts, a);
    var i :| 0 <= i < |pts| && Coord(pts[i], a) == m;
    assert m <= Coord(pts[0], a) && m <= Coord(pts[1], a) && m <= Coord(pts[2], a) && m <= Coord(pts[3], a);
  }

  lemma HighFour(pts: seq<Point>, a: Axis)
    requires |pts| == 4
    ensures High(pts, a) == Max(Max(Coord(pts[0], a), Coord(pts[1], a)), Max(Coord(pts[2], a), Coord(pts[3], a)))
  {
    var m := High(pts, a);
    var i :| 0 <= i < |pts| && Coord(pts[i], a) == m;
    assert m >= Coord(pts[0], a) && m >= Coord(pts[1], a) && m >= Coord(pts[2], a) && m >= Coord(pts[3], a);
  }

  /** The quarter turn of a four-point body, point by point. */
  function TurnFour(b: seq<Point>): (r: seq<Point>)
    requires |b| == 4
    ensures |r| == 4
  {
    var w := Extent4(b, X);
    [TurnPoint(b[0], w), TurnPoint(b[1], w), TurnPoint(b[2], w), TurnPoint(b[3], w)]
  }

  /** Every point of a four-point body lies in [0, extent) along both axes. */
  predicate FitsFour(b: seq<Point>)
    requires |b| == 4
  {
    var w, h := Extent4(b, X), Extent4(b, Y);
    Fits(b[0], w, h) && Fits(b[1], w, h) && Fits(b[2], w, h) && Fits(b[3], w, h)
  }

  predicate Fits(pt: Point, w: int, h: int) {
    0 <= pt.x < w && 0 <= pt.y < h
  }

  /** Both bodies fit their boxes, the boxes agree, and every point of `b` is a point of `c`. */
  predicate SameShapeFour(b: seq<Point>, c: seq<Point>)
    requires |b| == 4 && |c| == 4
  {
    FitsFour(b) && FitsFour(c) && Extent4(b, X) == Extent4(c, X) && Extent4(b, Y) == Extent4(c, Y) &&
    b[0] in c && b[1] in c && b[2] in c && b[3] in c
  }

  /** The quarter turn of a four-point piece, point by point. */
  lemma RotateBodyFour(q: Piece)
    requires |q.body| == 4
    ensures Rotate(q).body == TurnFour(q.body)
  {
    ExtentFour(q);
  }

  /** One more turn of a piece whose n-th turn has body `b`. */
  lemma TurnsFour(p: Piece, n: nat, b: seq<Point>)
    requires p.Valid() && |b| == 4 && Turns(p, n).body == b
    ensures Turns(p, n + 1).body == TurnFour(b)
  {
    RotateBodyFour(Turns(p, n));
  }

  /** A four-point piece fits its box exactly when its points lie in [0, extent) along both axes. */
  lemma InBoxFour(q: Piece)
    requires |q.body| == 4
    ensures InBox(q) <==> FitsFour(q.body)
  {
    ExtentFour(q);
    var b, w, h := q.body, q.Width(), q.Height();
    if FitsFour(b) {
      forall k | 0 <= k < 4
        ensures 0 <= b[k].x < w && 0 <= b[k].y < h
      {
        assert Fits(b[k], w, h) by {
          if k == 0 {} else if k == 1 {} else if k == 2 {} else {}
        }
      }
    }
    if InBox(q) {
      assert Fits(b[0], w, h) && Fits(b[1], w, h) && Fits(b[2], w, h) && Fits(b[3], w, h);
    }
  }

  /** Shape equality of two four-point pieces, as arithmetic on the points. */
  lemma EqualsFour(q: Piece, p: Piece)
    requires |q.body| == 4 && |p.body| == 4
    requires SameBox(q, p) ==> InBox(q) && InBox(p)
    ensures Equals(q, p) <==>
      Extent4(q.body, X) == Extent4(p.body, X) && Extent4(q.body, Y) == Extent4(p.body, Y) &&
      q.body[0] in p.body && q.body[1] in p.body && q.body[2] in p.body && q.body[3] in p.body
  {
    ExtentFour(q);
    ExtentFour(p);
    AllInFour(q.body, p.body);
  }

  lemma AllInFour(pts: seq<Point>, table: seq<Point>)
    requires |pts| == 4
    ensures AllIn(pts, table) <==> pts[0] in table && pts[1] in table && pts[2] in table && pts[3] in table
  {
    AllInMembers(pts, table);
    assert (forall k :: 0 <= k < |pts| ==> pts[k] in table) ==> pts[0] in table && pts[1] in table && pts[2] in table && pts[3] in table;
  }

  /** Whether turn n closes the cycle, for four-point bodies, as arithmetic on the points. */
  lemma ClosesAtFour(p: Piece, n: nat, b: seq<Point>)
    requires |p.body| == 4 && |b| == 4 && Turns(p, n).body == b
    ensures ClosesAt(p, n) <==> SameShapeFour(b, p.body)
  {
    var q := Turns(p, n);
    InBoxFour(q);
    InBoxFour(p);
    if InBox(p) && InBox(q) {
      EqualsFour(q, p);
    }
  }

  /** The least x and the least y of a four-point body are both 0. */
  predicate TouchesAxes(b: seq<Point>)
    requires |b| == 4
  {
    Min(Min(b[0].x, b[1].x), Min(b[2].x, b[3].x)) == 0 && Min(Min(b[0].y, b[1].y), Min(b[2].y, b[3].y)) == 0
  }

  /** A four-point body whose least coordinates are 0 is normalised. */
  lemma NormalizedFour(p: Piece)
    requires |p.body| == 4 && TouchesAxes(p.body)
    ensures Normalized(p)
  {
  }

  /** CycleLengthLeast for a four-point body given by its coordinates. */
  lemma CycleLengthFour(p: Piece, n: nat)
    requires |p.body| == 4 && 1 <= n && TouchesAxes(p.body)
    requires FreshTurns(p, n) && ClosesAt(p, n)
    ensures Normalized(p) && |RotationCycle(p)| == n
  {
    NormalizedFour(p);
    CycleLengthLeast(p, n);
  }

  /*
   * The cycle of a four-point piece from its quarter turns written out: if
   * the n-th turn is the first whose shape is the start's, the cycle has n
   * pieces. One lemma per cycle length that occurs among the tetrominoes.
   */

  lemma Cycle1(p: Piece, b1: seq<Point>)
    requires |p.body| == 4 && TouchesAxes(p.body)
    requires TurnFour(p.body) == b1
    requires SameShapeFour(b1, p.body)
    ensures Normalized(p) && |RotationCycle(p)| == 1
  {
    TurnsFour(p, 0, p.body);
    ClosesAtFour(p, 1, b1);
    CycleLengthFour(p, 1);
  }

  lemma Cycle2(p: Piece, b1: seq<Point>, b2: seq<Point>)
    requires |p.body| == 4 && TouchesAxes(p.body)
    requires TurnFour(p.body) == b1 && TurnFour(b1) == b2
    requires !SameShapeFour(b1, p.body)
    requires SameShapeFour(b2, p.body)
    ensures Normalized(p) && |RotationCycle(p)| == 2
  {
    TurnsFour(p, 0, p.body);
    TurnsFour(p, 1, b1);
    ClosesAtFour(p, 1, b1);
    FreshTurnsNext(p, 1);
    ClosesAtFour(p, 2, b2);
    CycleLengthFour(p, 2);
  }

  lemma Cycle4(p: Piece, b1: seq<Point>, b2: seq<Point>, b3: seq<Point>, b4: seq<Point>)
    requires |p.body| == 4 && TouchesAxes(p.body)
    requires TurnFour(p.body) == b1 && TurnFour(b1) == b2 && TurnFour(b2) == b3 && TurnFour(b3) == b4
    requires !SameShapeFour(b1, p.body) && !SameShapeFour(b2, p.body) && !SameShapeFour(b3, p.body)
    requires SameShapeFour(b4, p.body)
    ensures Normalized(p) && |RotationCycle(p)| == 4
  {
    TurnsFour(p, 0, p.body);
    TurnsFour(p, 1, b1);
    TurnsFour(p, 2, b2);
    TurnsFour(p, 3, b3);
    ClosesAtFour(p, 1, b1);
    FreshTurnsNext(p, 1);
    ClosesAtFour(p, 2, b2);
    FreshTurnsNext(p, 2);
    ClosesAtFour(p, 3, b3);
    FreshTurnsNext(p, 3);
    ClosesAtFour(p, 4, b4);
    CycleLengthFour(p, 4);
  }

  /** The I tetromino, catalogue piece 0, as parsed from its coordinate list. */
  lemma IFirst()
    ensures FirstPiece(0).body == [Point(0, 0), Point(0, 1), Point(0, 2), Point(0, 3)]
  {
    var v := Shapes[0].0;
    assert v == [0, 0, 0, 1, 0, 2, 0, 3];
    ParsePointsPairs(v);
  }

  /** Its quarter turns, one at a time. */
  lemma ITurn1()
    ensures TurnFour([Point(0, 0), Point(0, 1), Point(0, 2), Point(0, 3)]) == [Point(0, 0), Point(1, 0), Point(2, 0), Point(3, 0)]
  {
  }

  lemma ITurn2()
    ensures TurnFour([Point(0, 0), Point(1, 0), Point(2, 0), Point(3, 0)]) == [Point(0, 3), Point(0, 2), Point(0, 1), Point(0, 0)]
  {
  }

  /** The I tetromino touches both axes; of its turns only the last has its shape. */
  lemma IShapes()
    ensures TouchesAxes([Point(0, 0), Point(0, 1), Point(0, 2), Point(0, 3)])
    ensures !SameShapeFour([Point(0, 0), Point(1, 0), Point(2, 0), Point(3, 0)], [Point(0, 0), Point(0, 1), Point(0, 2), Point(0, 3)])
    ensures SameShapeFour([Point(0, 3), Point(0, 2), Point(0, 1), Point(0, 0)], [Point(0, 0), Point(0, 1), Point(0, 2), Point(0, 3)])
  {
  }

  /** The I tetromino has 2 orientations. */
  lemma ICycle(p: Piece)
    requires p.body == [Point(0, 0), Point(0, 1), Point(0, 2), Point(0, 3)]
    ensures Normalized(p) && |RotationCycle(p)| == 2
  {
    ITurn1();
    ITurn2();
    IShapes();
    Cycle2(p, [Point(0, 0), Point(1, 0), Point(2, 0), Point(3, 0)],
      [Point(0, 3), Point(0, 2), Point(0, 1), Point(0, 0)]);
  }

  /** The L tetromino, catalogue piece 1, as parsed from its coordinate list. */
  lemma LFirst()
    ensures FirstPiece(1).body == [Point(0, 0), Point(0, 1), Point(0, 2), Point(1, 0)]
  {
    var v := Shapes[1].0;
    assert v == [0, 0, 0, 1, 0, 2, 1, 0];
    ParsePointsPairs(v);
  }

  /** Its quarter turns, one at a time. */
  lemma LTurn1()
    ensures TurnFour([Point(0, 0), Point(0, 1), Point(0, 2), Point(1, 0)]) == [Point(0, 1), Point(1, 1), Point(2, 1), Point(0, 0)]
  {
  }

  lemma LTurn2()
    ensures TurnFour([Point(0, 1), Point(1, 1), Point(2, 1), Point(0, 0)]) == [Point(1, 2), Point(1, 1), Point(1, 0), Point(0, 2)]
  {
  }

  lemma LTurn3()
    ensures TurnFour([Point(1, 2), Point(1, 1), Point(1, 0), Point(0, 2)]) == [Point(2, 0), Point(1, 0), Point(0, 0), Point(2, 1)]
  {
  }

  lemma LTurn4()
    ensures TurnFour([Point(2, 0), Point(1, 0), Point(0, 0), Point(2, 1)]) == [Point(0, 0), Point(0, 1), Point(0, 2), Point(1, 0)]
  {
  }

  /** The L tetromino touches both axes; of its turns only the last has its shape. */
  lemma LShapes()
    ensures TouchesAxes([Point(0, 0), Point(0, 1), Point(0, 2), Point(1, 0)])
    ensures !SameShapeFour([Point(0, 1), Point(1, 1), Point(2, 1), Point(0, 0)], [Point(0, 0), Point(0, 1), Point(0, 2), Point(1, 0)])
    ensures !SameShapeFour([Point(1, 2), Point(1, 1), Point(1, 0), Point(0, 2)], [Point(0, 0), Point(0, 1), Point(0, 2), Point(1, 0)])
    ensures !SameShapeFour([Point(2, 0), Point(1, 0), Point(0, 0), Point(2, 1)], [Point(0, 0), Point(0, 1), Point(0, 2), Point(1, 0)])
    ensures SameShapeFour([Point(0, 0), Point(0, 1), Point(0, 2), Point(1, 0)], [Point(0, 0), Point(0, 1), Point(0, 2), Point(1, 0)])
  {
  }

  /** The L tetromino has 4 orientations. */
  lemma LCycle(p: Piece)
    requires p.body == [Point(0, 0), Point(0, 1), Point(0, 2), Point(1, 0)]
    ensures Normalized(p) && |RotationCycle(p)| == 4
  {
    LTurn1();
    LTurn2();
    LTurn3();
    LTurn4();
    LShapes();
    Cycle4(p, [Point(0, 1), Point(1, 1), Point(2, 1), Point(0, 0)],
      [Point(1, 2), Point(1, 1), Point(1, 0), Point(0, 2)],
      [Point(2, 0), Point(1, 0), Point(0, 0), Point(2, 1)],
      [Point(0, 0), Point(0, 1), Point(0, 2), Point(1, 0)]);
  }

  /** The J tetromino, catalogue piece 2, as parsed from its coordinate list. */
  lemma JFirst()
    ensures FirstPiece(2).body == [Point(0, 0), Point(1, 0), Point(1, 1), Point(1, 2)]
  {
    var v := Shapes[2].0;
    assert v == [0, 0, 1, 0, 1, 1, 1, 2];
    ParsePointsPairs(v);
  }

  /** Its quarter turns, one at a time. */
  lemma JTurn1()
    ensures TurnFour([Point(0, 0), Point(1, 0), Point(1, 1), Point(1, 2)]) == [Point(0, 1), Point(0, 0), Point(1, 0), Point(2, 0)]
  {
  }

  lemma JTurn2()
    ensures TurnFour([Point(0, 1), Point(0, 0), Point(1, 0), Point(2, 0)]) == [Point(1, 2), Point(0, 2), Point(0, 1), Point(0, 0)]
  {
  }

  lemma JTurn3()
    ensures TurnFour([Point(1, 2), Point(0, 2), Point(0, 1), Point(0, 0)]) == [Point(2, 0), Point(2, 1), Point(1, 1), Point(0, 1)]
  {
  }

  lemma JTurn4()
    ensures TurnFour([Point(2, 0), Point(2, 1), Point(1, 1), Point(0, 1)]) == [Point(0, 0), Point(1, 0), Point(1, 1), Point(1, 2)]
  {
  }

  /** The J tetromino touches both axes; of its turns only the last has its shape. */
  lemma JShapes()
    ensures TouchesAxes([Point(0, 0), Point(1, 0), Point(1, 1), Point(1, 2)])
    ensures !SameShapeFour([Point(0, 1), Point(0, 0), Point(1, 0), Point(2, 0)], [Point(0, 0), Point(1, 0), Point(1, 1), Point(1, 2)])
    ensures !SameShapeFour([Point(1, 2), Point(0, 2), Point(0, 1), Point(0, 0)], [Point(0, 0), Point(1, 0), Point(1, 1), Point(1, 2)])
    ensures !SameShapeFour([Point(2, 0), Point(2, 1), Point(1, 1), Point(0, 1)], [Point(0, 0), Point(1, 0), Point(1, 1), Point(1, 2)])
    ensures SameShapeFour([Point(0, 0), Point(1, 0), Point(1, 1), Point(1, 2)], [Point(0, 0), Point(1, 0), Point(1, 1), Point(1, 2)])
  {
  }

  /** The J tetromino has 4 orientations. */
  lemma JCycle(p: Piece)
    requires p.body == [Point(0, 0), Point(1, 0), Point(1, 1), Point(1, 2)]
    ensures Normalized(p) && |RotationCycle(p)| == 4
  {
    JTurn1();
    JTurn2();
    JTurn3();
    JTurn4();
    JShapes();
    Cycle4(p, [Point(0, 1), Point(0, 0), Point(1, 0), Point(2, 0)],
      [Point(1, 2), Point(0, 2), Point(0, 1), Point(0, 0)],
      [Point(2, 0), Point(2, 1), Point(1, 1), Point(0, 1)],
      [Point(0, 0), Point(1, 0), Point(1, 1), Point(1, 2)]);
  }

  /** The S tetromino, catalogue piece 3, as parsed from its coordinate list. */
  lemma SFirst()
    ensures FirstPiece(3).body == [Point(0, 0), Point(1, 0), Point(1, 1), Point(2, 1)]
  {
    var v := Shapes[3].0;
    assert v == [0, 0, 1, 0, 1, 1, 2, 1];
    ParsePointsPairs(v);
  }

  /** Its quarter turns, one at a time. */
  lemma STurn1()
    ensures TurnFour([Point(0, 0), Point(1, 0), Point(1, 1), Point(2, 1)]) == [Point(0, 2), Point(0, 1), Point(1, 1), Point(1, 0)]
  {
  }

  lemma STurn2()
    ensures TurnFour([Point(0, 2), Point(0, 1), Point(1, 1), Point(1, 0)]) == [Point(2, 1), Point(1, 1), Point(1, 0), Point(0, 0)]
  {
  }

  /** The S tetromino touches both axes; of its turns only the last has its shape. */
  lemma SShapes()
    ensures TouchesAxes([Point(0, 0), Point(1, 0), Point(1, 1), Point(2, 1)])
    ensures !SameShapeFour([Point(0, 2), Point(0, 1), Point(1, 1), Point(1, 0)], [Point(0, 0), Point(1, 0), Point(1, 1), Point(2, 1)])
    ensures SameShapeFour([Point(2, 1), Point(1, 1), Point(1, 0), Point(0, 0)], [Point(0, 0), Point(1, 0), Point(1, 1), Point(2, 1)])
  {
  }

  /** The S tetromino has 2 orientations. */
  lemma SCycle(p: Piece)
    requires p.body == [Point(0, 0), Point(1, 0), Point(1, 1), Point(2, 1)]
    ensures Normalized(p) && |RotationCycle(p)| == 2
  {
    STurn1();
    STurn2();
    SShapes();
    Cycle2(p, [Point(0, 2), Point(0, 1), Point(1, 1), Point(1, 0)],
      [Point(2, 1), Point(1, 1), Point(1, 0), Point(0, 0)]);
  }

  /** The Z tetromino, catalogue piece 4, as parsed from its coordinate list. */
  lemma ZFirst()
    ensures FirstPiece(4).body == [Point(0, 1), Point(1, 1), Point(1, 0), Point(2, 0)]
  {
    var v := Shapes[4].0;
    assert v == [0, 1, 1, 1, 1, 0, 2, 0];
    ParsePointsPairs(v);
  }

  /** Its quarter turns, one at a time. */
  lemma ZTurn1()
    ensures TurnFour([Point(0, 1), Point(1, 1), Point(1, 0), Point(2, 0)]) == [Point(1, 2), Point(1, 1), Point(0, 1), Point(0, 0)]
  {
  }

  lemma ZTurn2()
    ensures TurnFour([Point(1, 2), Point(1, 1), Point(0, 1), Point(0, 0)]) == [Point(2, 0), Point(1, 0), Point(1, 1), Point(0, 1)]
  {
  }

  /** The Z tetromino touches both axes; of its turns only the last has its shape. */
  lemma ZShapes()
    ensures TouchesAxes([Point(0, 1), Point(1, 1), Point(1, 0), Point(2, 0)])
    ensures !SameShapeFour([Point(1, 2), Point(1, 1), Point(0, 1), Point(0, 0)], [Point(0, 1), Point(1, 1), Point(1, 0), Point(2, 0)])
    ensures SameShapeFour([Point(2, 0), Point(1, 0), Point(1, 1), Point(0, 1)], [Point(0, 1), Point(1, 1), Point(1, 0), Point(2, 0)])
  {
  }

  /** The Z tetromino has 2 orientations. */
  lemma ZCycle(p: Piece)
    requires p.body == [Point(0, 1), Point(1, 1), Point(1, 0), Point(2, 0)]
    ensures Normalized(p) && |RotationCycle(p)| == 2
  {
    ZTurn1();
    ZTurn2();
    ZShapes();
    Cycle2(p, [Point(1, 2), Point(1, 1), Point(0, 1), Point(0, 0)],
      [Point(2, 0), Point(1, 0), Point(1, 1), Point(0, 1)]);
  }

  /** The O tetromino, catalogue piece 5, as parsed from its coordinate list. */
  lemma OFirst()
    ensures FirstPiece(5).body == [Point(0, 0), Point(0, 1), Point(1, 0), Point(1, 1)]
  {
    var v := Shapes[5].0;
    assert v == [0, 0, 0, 1, 1, 0, 1, 1];
    ParsePointsPairs(v);
  }

  /** Its quarter turns, one at a time. */
  lemma OTurn1()
    ensures TurnFour([Point(0, 0), Point(0, 1), Point(1, 0), Point(1, 1)]) == [Point(0, 1), Point(1, 1), Point(0, 0), Point(1, 0)]
  {
  }

  /** The O tetromino touches both axes; of its turns only the last has its shape. */
  lemma OShapes()
    ensures TouchesAxes([Point(0, 0), Point(0, 1), Point(1, 0), Point(1, 1)])
    ensures SameShapeFour([Point(0, 1), Point(1, 1), Point(0, 0), Point(1, 0)], [Point(0, 0), Point(0, 1), Point(1, 0), Point(1, 1)])
  {
  }

  /** The O tetromino has 1 orientation. */
  lemma OCycle(p: Piece)
    requires p.body == [Point(0, 0), Point(0, 1), Point(1, 0), Point(1, 1)]
    ensures Normalized(p) && |RotationCycle(p)| == 1
  {
    OTurn1();
    OShapes();
    Cycle1(p, [Point(0, 1), Point(1, 1), Point(0, 0), Point(1, 0)]);
  }

  /** The T tetromino, catalogue piece 6, as parsed from its coordinate list. */
  lemma TFirst()
    ensures FirstPiece(6).body == [Point(0, 0), Point(1, 0), Point(1, 1), Point(2, 0)]
  {
    var v := Shapes[6].0;
    assert v == [0, 0, 1, 0, 1, 1, 2, 0];
    ParsePointsPairs(v);
  }

  /** Its quarter turns, one at a time. */
  lemma TTurn1()
    ensures TurnFour([Point(0, 0), Point(1, 0), Point(1, 1), Point(2, 0)]) == [Point(0, 2), Point(0, 1), Point(1, 1), Point(0, 0)]
  {
  }

  lemma TTurn2()
    ensures TurnFour([Point(0, 2), Point(0, 1), Point(1, 1), Point(0, 0)]) == [Point(2, 1), Point(1, 1), Point(1, 0), Point(0, 1)]
  {
  }

  lemma TTurn3()
    ensures TurnFour([Point(2, 1), Point(1, 1), Point(1, 0), Point(0, 1)]) == [Point(1, 0), Point(1, 1), Point(0, 1), Point(1, 2)]
  {
  }

  lemma TTurn4()
    ensures TurnFour([Point(1, 0), Point(1, 1), Point(0, 1), Point(1, 2)]) == [Point(0, 0), Point(1, 0), Point(1, 1), Point(2, 0)]
  {
  }

  /** The T tetromino touches both axes; of its turns only the last has its shape. */
  lemma TShapes()
    ensures TouchesAxes([Point(0, 0), Point(1, 0), Point(1, 1), Point(2, 0)])
    ensures !SameShapeFour([Point(0, 2), Point(0, 1), Point(1, 1), Point(0, 0)], [Point(0, 0), Point(1, 0), Point(1, 1), Point(2, 0)])
    ensures !SameShapeFour([Point(2, 1), Point(1, 1), Point(1, 0), Point(0, 1)], [Point(0, 0), Point(1, 0), Point(1, 1), Point(2, 0)])
    ensures !SameShapeFour([Point(1, 0), Point(1, 1), Point(0, 1), Point(1, 2)], [Point(0, 0), Point(1, 0), Point(1, 1), Point(2, 0)])
    ensures SameShapeFour([Point(0, 0), Point(1, 0), Point(1, 1), Point(2, 0)], [Point(0, 0), Point(1, 0), Point(1, 1), Point(2, 0)])
  {
  }

  /** The T tetromino has 4 orientations. */
  lemma TCycle(p: Piece)
    requires p.body == [Point(0, 0), Point(1, 0), Point(1, 1), Point(2, 0)]
    ensures Normalized(p) && |RotationCycle(p)| == 4
  {
    TTurn1();
    TTurn2();
    TTurn3();
    TTurn4();
    TShapes();
    Cycle4(p, [Point(0, 2), Point(0, 1), Point(1, 1), Point(0, 0)],
      [Point(2, 1), Point(1, 1), Point(1, 0), Point(0, 1)],
      [Point(1, 0), Point(1, 1), Point(0, 1), Point(1, 2)],
      [Point(0, 0), Point(1, 0), Point(1, 1), Point(2, 0)]);
  }

  /** Each catalogue piece has four cells, is normalised, and has the number of orientations listed for it. */
  lemma FirstPieceCycle(k: nat)
    requires k < 7
    ensures |FirstPiece(k).body| == 4 && Normalized(FirstPiece(k))
    ensures |RotationCycle(FirstPiece(k))| == Orientations[k]
  {
    if k == 0 {
      assert Orientations[k] == 2;
      IFirst();
      ICycle(FirstPiece(k));
    } else if k == 1 {
      assert Orientations[k] == 4;
      LFirst();
      LCycle(FirstPiece(k));
    } else if k == 2 {
      assert Orientations[k] == 4;
      JFirst();
      JCycle(FirstPiece(k));
    } else if k == 3 {
      assert Orientations[k] == 2;
      SFirst();
      SCycle(FirstPiece(k));
    } else if k == 4 {
      assert Orientations[k] == 2;
      ZFirst();
      ZCycle(FirstPiece(k));
    } else if k == 5 {
      assert Orientations[k] == 1;
      OFirst();
      OCycle(FirstPiece(k));
    } else {
      assert Orientations[k] == 4;
      TFirst();
      TCycle(FirstPiece(k));
    }
  }
}

=== FILE: pieces.dfy ===
/**
 * Piece shapes: a body of integer points, its derived bounding box and skirt,
 * the quarter-turn used to build rotation states, and the order-insensitive
 * shape equality used to close a rotation cycle (src/Piece.java).
 */
module Pieces {

  /** Java's Integer.MAX_VALUE: the value a skirt column keeps when no body point lies in it. */
  const IntMax: int := 0x7fff_ffff

  datatype Point = Point(x: int, y: int)

  /** The colour tag a piece paints its cells with (stands in for java.awt.Color). */
  datatype Color = Cyan | Orange | Blue | Green | Red | Yellow | Purple

  datatype Axis = X | Y

  function Coord(p: Point, a: Axis): int {
    if a == X then p.x else p.y
  }

  /** Smallest coordinate along `a` over a non-empty point list. */
  function Low(pts: seq<Point>, a: Axis): (m: int)
    requires |pts| > 0
    ensures forall i :: 0 <= i < |pts| ==> m <= Coord(pts[i], a)
    ensures exists i :: 0 <= i < |pts| && Coord(pts[i], a) == m
  {
    if |pts| == 1 then Coord(pts[0], a)
    else
      var rest := Low(pts[1..], a);
      assert forall i :: 1 <= i < |pts| ==> pts[i] == pts[1..][i - 1];
      if Coord(pts[0], a) < rest then Coord(pts[0], a) else rest
  }

  /** Largest coordinate along `a` over a non-empty point list. */
  function High(pts: seq<Point>, a: Axis): (m: int)
    requires |pts| > 0
    ensures forall i :: 0 <= i < |pts| ==> Coord(pts[i], a) <= m
    ensures exists i :: 0 <= i < |pts| && Coord(pts[i], a) == m
  {
    if |pts| == 1 then Coord(pts[0], a)
    else
      var rest := High(pts[1..], a);
      assert forall i :: 1 <= i < |pts| ==> pts[i] == pts[1..][i - 1];
      if Coord(pts[0], a) > rest then Coord(pts[0], a) else rest
  }

  /**
   * The lowest y among the points in column `col`, starting from Java's
   * Integer.MAX_VALUE, so a column no point lies in keeps that value.
   */
  function ColumnLow(pts: seq<Point>, col: int): (m: int)
    ensures m <= IntMax
    ensures forall i :: 0 <= i < |pts| && pts[i].x == col ==> m <= pts[i].y
    ensures m == IntMax || exists i :: 0 <= i < |pts| && pts[i].x == col && pts[i].y == m
  {
    if |pts| == 0 then IntMax
    else
      var rest := ColumnLow(pts[1..], col);
      assert forall i :: 1 <= i < |pts| ==> pts[i] == pts[1..][i - 1];
      if pts[0].x == col && rest > pts[0].y then pts[0].y else rest
  }

  /**
   * An immutable piece: its body points and colour. The Java constructor's
   * derived fields are the member functions Width, Height and Skirt; the
   * rotation link is kept outside, as a position in the piece's rotation
   * cycle (module Catalog).
   */
  datatype Piece = Piece(body: seq<Point>, color: Color) {

    /** The constructor needs at least one point (its extremes start from Integer.MIN/MAX_VALUE). */
    predicate Valid() {
      |body| > 0
    }

    function Width(): int
      requires Valid()
    {
      High(body, X) - Low(body, X) + 1
    }

    function Height(): int
      requires Valid()
    {
      High(body, Y) - Low(body, Y) + 1
    }

    /** One entry per column of the width, indexed by x relative to the leftmost point. */
    function Skirt(): (s: seq<int>)
      requires Valid()
      ensures |s| == Width()
    {
      var minX := Low(body, X);
      seq(Width(), c => ColumnLow(body, minX + c))
    }
  }

  /** Every body point lies inside the piece's own width x height box. */
  predicate InBox(p: Piece)
    requires p.Valid()
  {
    forall k :: 0 <= k < |p.body| ==> 0 <= p.body[k].x < p.Width() && 0 <= p.body[k].y < p.Height()
  }

  /** A piece whose body touches x = 0 and y = 0, as every catalogue piece does. */
  predicate Normalized(p: Piece) {
    p.Valid() && Low(p.body, X) == 0 && Low(p.body, Y) == 0
  }

  /** Width, height and body length agree: the first test of Piece.equals. */
  predicate SameBox(a: Piece, b: Piece)
    requires a.Valid() && b.Valid()
  {
    a.Width() == b.Width() && a.Height() == b.Height() && |a.body| == |b.body|
  }

  /**
   * Piece.equals: same box and every point of the receiver is a point of
   * `other`. Java marks `other`'s points in a width x height table and looks
   * the receiver's points up in it, so both bodies must lie in that box once
   * the dimensions match.
   */
  predicate Equals(a: Piece, other: Piece)
    requires a.Valid() && other.Valid()
    requires SameBox(a, other) ==> InBox(a) && InBox(other)
    ensures Equals(a, other) <==> SameBox(a, other) && forall k :: 0 <= k < |a.body| ==> a.body[k] in other.body
  {
    AllInMembers(a.body, other.body);
    SameBox(a, other) && AllIn(a.body, other.body)
  }

  /** The receiver loop of Piece.equals: every point, in order, is found among `table`. */
  predicate AllIn(pts: seq<Point>, table: seq<Point>) {
    |pts| == 0 || (pts[0] in table && AllIn(pts[1..], table))
  }

  /** AllIn holds exactly when each point of the list is one of the table's. */
  lemma {:induction false} AllInMembers(pts: seq<Point>, table: seq<Point>)
    ensures AllIn(pts, table) <==> forall k :: 0 <= k < |pts| ==> pts[k] in table
  {
    if |pts| > 0 {
      AllInMembers(pts[1..], table);
      assert forall k :: 1 <= k < |pts| ==> pts[k] == pts[1..][k - 1];
    }
  }

  /** The point (x, y) of a piece of width `w` after one turn. */
  function TurnPoint(pt: Point, w: int): Point {
    Point(pt.y, w - 1 - pt.x)
  }

  /** Turns every point of a body, keeping their order. */
  function TurnAll(pts: seq<Point>, w: int): (r: seq<Point>)
    ensures |r| == |pts|
    ensures forall i :: 0 <= i < |pts| ==> r[i] == TurnPoint(pts[i], w)
  {
    if |pts| == 0 then [] else [TurnPoint(pts[0], w)] + TurnAll(pts[1..], w)
  }

  /**
   * calcNextPiece: every point (x, y) goes to (y, width - 1 - x), keeping
   * body order and colour. With row 0 at the bottom this is a clockwise turn.
   */
  function Rotate(p: Piece): (r: Piece)
    requires p.Valid()
    ensures r.Valid() && |r.body| == |p.body| && r.color == p.color
    ensures forall i :: 0 <= i < |p.body| ==> r.body[i] == Point(p.body[i].y, p.Width() - 1 - p.body[i].x)
  {
    Piece(TurnAll(p.body, p.Width()), p.color)
  }

  /** Two point lists whose coordinates agree pointwise (axis `a` of one, `b` of the other) share extremes. */
  lemma SameExtremes(pts: seq<Point>, a: Axis, qts: seq<Point>, b: Axis)
    requires |pts| == |qts| > 0
    requires forall i :: 0 <= i < |pts| ==> Coord(qts[i], b) == Coord(pts[i], a)
    ensures Low(qts, b) == Low(pts, a) && High(qts, b) == High(pts, a)
  {
    var i :| 0 <= i < |pts| && Coord(pts[i], a) == Low(pts, a);
    var j :| 0 <= j < |qts| && Coord(qts[j], b) == Low(qts, b);
    assert Low(qts, b) <= Coord(qts[i], b) && Low(pts, a) <= Coord(pts[j], a);
    var k :| 0 <= k < |pts| && Coord(pts[k], a) == High(pts, a);
    var l :| 0 <= l < |qts| && Coord(qts[l], b) == High(qts, b);
    assert High(qts, b) >= Coord(qts[k], b) && High(pts, a) >= Coord(pts[l], a);
  }

  /** Coordinates reflected as c - v swap and reflect the extremes. */
  lemma MirroredExtremes(pts: seq<Point>, a: Axis, qts: seq<Point>, b: Axis, c: int)
    requires |pts| == |qts| > 0
    requires forall i :: 0 <= i < |pts| ==> Coord(qts[i], b) == c - Coord(pts[i], a)
    ensures Low(qts, b) == c - High(pts, a) && High(qts, b) == c - Low(pts, a)
  {
    var i :| 0 <= i < |pts| && Coord(pts[i], a) == Low(pts, a);
    var j :| 0 <= j < |qts| && Coord(qts[j], b) == Low(qts, b);
    var k :| 0 <= k < |pts| && Coord(pts[k], a) == High(pts, a);
    var l :| 0 <= l < |qts| && Coord(qts[l], b) == High(qts, b);
    assert Low(qts, b) <= Coord(qts[k], b) == c - High(pts, a);
    assert Coord(pts[j], a) <= High(pts, a);
    assert High(qts, b) >= Coord(qts[i], b) == c - Low(pts, a);
    assert Coord(pts[l], a) >= Low(pts, a);
  }

  /** Every two coordinates along `a` differ by at most High - Low. */
  lemma SpanBound(pts: seq<Point>, a: Axis)
    requires |pts| > 0
    ensures forall i, j :: 0 <= i < |pts| && 0 <= j < |pts| ==>
              Coord(pts[i], a) - Coord(pts[j], a) <= High(pts, a) - Low(pts, a)
  {
  }

  /** Some two coordinates along `a` differ by exactly High - Low. */
  lemma SpanReached(pts: seq<Point>, a: Axis) returns (i: nat, j: nat)
    requires |pts| > 0
    ensures i < |pts| && j < |pts|
    ensures Coord(pts[i], a) - Coord(pts[j], a) == High(pts, a) - Low(pts, a)
  {
    i :| 0 <= i < |pts| && Coord(pts[i], a) == High(pts, a);
    j :| 0 <= j < |pts| && Coord(pts[j], a) == Low(pts, a);
  }

  /**
   * The width of a piece is the span of its x coordinates: every two points
   * differ by less than it and some two by exactly width - 1; the same for
   * the height and y.
   */
  lemma BoundingBox(p: Piece)
    requires p.Valid()
    ensures forall i, j :: 0 <= i < |p.body| && 0 <= j < |p.body| ==>
              p.body[i].x - p.body[j].x < p.Width() && p.body[i].y - p.body[j].y < p.Height()
    ensures exists i, j :: 0 <= i < |p.body| && 0 <= j < |p.body| && p.body[i].x - p.body[j].x == p.Width() - 1
    ensures exists i, j :: 0 <= i < |p.body| && 0 <= j < |p.body| && p.body[i].y - p.body[j].y == p.Height() - 1
  {
    SpanBound(p.body, X);
    SpanBound(p.body, Y);
    var a, b := SpanReached(p.body, X);
    var c, d := SpanReached(p.body, Y);
    assert p.body[a].x - p.body[b].x == p.Width() - 1;
    assert p.body[c].y - p.body[d].y == p.Height() - 1;
  }

  /**
   * The skirt has one entry per column of the width; entry c is the lowest y
   * of the points c columns right of the leftmost point, or Integer.MAX_VALUE
   * when no point lies in that column.
   */
  lemma SkirtLowest(p: Piece)
    requires p.Valid()
    ensures |p.Skirt()| == p.Width()
    ensures forall c, i :: 0 <= c < p.Width() && 0 <= i < |p.body| && p.body[i].x - Low(p.body, X) == c ==>
              p.Skirt()[c] <= p.body[i].y
    ensures forall c :: 0 <= c < p.Width() ==>
              p.Skirt()[c] == IntMax ||
              exists i :: 0 <= i < |p.body| && p.body[i].x - Low(p.body, X) == c && p.body[i].y == p.Skirt()[c]
  {
    var s := p.Skirt();
    forall c | 0 <= c < p.Width()
      ensures s[c] == ColumnLow(p.body, Low(p.body, X) + c)
    {
    }
  }

  /** A normalised piece spans [0, width) x [0, height). */
  lemma NormalizedBox(p: Piece)
    requires Normalized(p)
    ensures p.Width() == High(p.body, X) + 1 && p.Height() == High(p.body, Y) + 1
    ensures p.Width() >= 1 && p.Height() >= 1
    ensures InBox(p)
  {
    var pts := p.body;
    forall k | 0 <= k < |pts|
      ensures 0 <= pts[k].x < p.Width() && 0 <= pts[k].y < p.Height()
    {
      assert Low(pts, X) <= Coord(pts[k], X) <= High(pts, X);
      assert Low(pts, Y) <= Coord(pts[k], Y) <= High(pts, Y);
    }
  }

  /** A normalised piece touches all four sides of its box. */
  lemma NormalizedTouches(p: Piece)
    requires Normalized(p)
    ensures exists i :: 0 <= i < |p.body| && p.body[i].x == 0
    ensures exists i :: 0 <= i < |p.body| && p.body[i].x == p.Width() - 1
    ensures exists i :: 0 <= i < |p.body| && p.body[i].y == 0
    ensures exists i :: 0 <= i < |p.body| && p.body[i].y == p.Height() - 1
  {
    var pts := p.body;
    var a :| 0 <= a < |pts| && Coord(pts[a], X) == Low(pts, X);
    var b :| 0 <= b < |pts| && Coord(pts[b], X) == High(pts, X);
    var c :| 0 <= c < |pts| && Coord(pts[c], Y) == Low(pts, Y);
    var d :| 0 <= d < |pts| && Coord(pts[d], Y) == High(pts, Y);
    assert pts[a].x == 0 && pts[b].x == p.Width() - 1 && pts[c].y == 0 && pts[d].y == p.Height() - 1;
  }

  /**
   * A quarter turn keeps a piece whose body touches x = 0 and y = 0
   * touching them, and swaps its width and height.
   */
  lemma RotateNormalized(p: Piece)
    requires Normalized(p)
    ensures Normalized(Rotate(p))
    ensures Rotate(p).Width() == p.Height() && Rotate(p).Height() == p.Width()
  {
    NormalizedBox(p);
    var r := Rotate(p);
    SameExtremes(p.body, Y, r.body, X);
    MirroredExtremes(p.body, X, r.body, Y, p.Width() - 1);
  }

  /** Turning a body of width w, then height h, four times in all, restores every point. */
  lemma TurnPointsFourTimes(b0: seq<Point>, b1: seq<Point>, b2: seq<Point>, b3: seq<Point>, b4: seq<Point>, w: int, h: int)
    requires |b1| == |b0| && |b2| == |b0| && |b3| == |b0| && |b4| == |b0|
    requires forall i :: 0 <= i < |b0| ==> b1[i] == TurnPoint(b0[i], w)
    requires forall i :: 0 <= i < |b0| ==> b2[i] == TurnPoint(b1[i], h)
    requires forall i :: 0 <= i < |b0| ==> b3[i] == TurnPoint(b2[i], w)
    requires forall i :: 0 <= i < |b0| ==> b4[i] == TurnPoint(b3[i], h)
    ensures b4 == b0
  {
    assert forall i :: 0 <= i < |b0| ==> b4[i] == b0[i];
  }

  /** Four quarter turns bring every point of a normalised piece back to where it was. */
  lemma FourTurnsIdentity(p: Piece)
    requires Normalized(p)
    ensures Rotate(Rotate(Rotate(Rotate(p)))) == p
  {
    var r1 := Rotate(p);
    var r2 := Rotate(r1);
    var r3 := Rotate(r2);
    var r4 := Rotate(r3);
    RotateNormalized(p);
    RotateNormalized(r1);
    RotateNormalized(r2);
    TurnPointsFourTimes(p.body, r1.body, r2.body, r3.body, r4.body, p.Width(), p.Height());
  }

  /** Shape equality is reflexive for any piece inside its own box. */
  lemma EqualsReflexive(p: Piece)
    requires p.Valid() && InBox(p)
    ensures Equals(p, p)
  {
    AllInMembers(p.body, p.body);
  }

  /** Shape equality ignores the order of body points: a reordered body is equal. */
  lemma EqualsIgnoresOrder(a: Piece, b: Piece)
    requires a.Valid() && b.Valid() && SameBox(a, b) && InBox(a) && InBox(b)
    requires multiset(a.body) == multiset(b.body)
    ensures Equals(a, b)
  {
    forall k | 0 <= k < |a.body|
      ensures a.body[k] in b.body
    {
      assert a.body[k] in multiset(a.body);
    }
    AllInMembers(a.body, b.body);
  }
}

=== FILE: randp.dfy ===
/**
 * The shuffle bag of src/Randp.java: draws walk through the array without
 * repeats, each draw swapping the drawn element behind the still-unused
 * prefix; once that prefix is empty the whole array is available again.
 * The random index is a parameter.
 */
module Bags {

  /** The array and the length of its still-unused prefix. */
  datatype Bag<T> = Bag(arr: seq<T>, numsLeft: int) {
    predicate Valid() {
      0 <= numsLeft <= |arr|
    }

    /** How many elements the next draw chooses from: the unused prefix, or the whole array after a reset. */
    function Pool(): int {
      if numsLeft <= 0 then |arr| else numsLeft
    }
  }

  /** The constructor: the whole array is unused. */
  function New<T>(arr: seq<T>): (b: Bag<T>)
    ensures b.Valid() && b.arr == arr && b.Pool() == |arr|
  {
    Bag(arr, |arr|)
  }

  /** swap(a, b): exchange two entries. */
  function Swap<T>(s: seq<T>, a: nat, b: nat): (r: seq<T>)
    requires a < |s| && b < |s|
    ensures |r| == |s| && r[a] == s[b] && r[b] == s[a]
    ensures forall k :: 0 <= k < |s| && k != a && k != b ==> r[k] == s[k]
  {
    s[a := s[b]][b := s[a]]
  }

  /** Exchanging two entries keeps the same elements. */
  lemma SwapPermutes<T>(s: seq<T>, a: nat, b: nat)
    requires a < |s| && b < |s|
    ensures multiset(Swap(s, a, b)) == multiset(s)
  {
    var t := s[a := s[b]];
    assert multiset(t) == multiset(s) - multiset{s[a]} + multiset{s[b]};
    assert multiset(t[b := s[a]]) == multiset(t) - multiset{t[b]} + multiset{s[a]};
  }

  /** The outcome of next(): the bag afterwards and the element returned. */
  datatype Draw<T> = Draw(bag: Bag<T>, item: T)

  /**
   * next(), with r the value of nextInt(n) for the pool size n: return
   * entry r, swap it to position n - 1 and shrink the pool by one. Java's
   * nextInt(0) throws, so the array must not be empty.
   */
  function Next<T>(b: Bag<T>, r: int): (d: Draw<T>)
    requires b.Valid() && |b.arr| > 0 && 0 <= r < b.Pool()
    ensures d.bag.Valid() && |d.bag.arr| == |b.arr| && d.bag.numsLeft == b.Pool() - 1
    ensures d.item == b.arr[r] && d.bag.arr[d.bag.numsLeft] == d.item
    ensures multiset(d.bag.arr) == multiset(b.arr)
  {
    var n := b.Pool();
    SwapPermutes(b.arr, r, n - 1);
    Draw(Bag(Swap(b.arr, r, n - 1), n - 1), b.arr[r])
  }

  /**
   * A draw takes its element out of the unused prefix: the new prefix plus
   * the element drawn is the old pool, and the entries past the old pool
   * are untouched.
   */
  lemma NextTakesFromPool<T>(b: Bag<T>, r: int)
    requires b.Valid() && |b.arr| > 0 && 0 <= r < b.Pool()
    ensures var d := Next(b, r);
      multiset(d.bag.arr[..d.bag.numsLeft]) + multiset{d.item} == multiset(b.arr[..b.Pool()]) &&
      d.bag.arr[b.Pool()..] == b.arr[b.Pool()..]
  {
    var n := b.Pool();
    var d := Next(b, r);
    var s := b.arr[..n];
    var t := d.bag.arr[..n];
    assert t == Swap(s, r, n - 1);
    SwapPermutes(s, r, n - 1);
    assert t == d.bag.arr[..n - 1] + [d.item];
    assert multiset(t) == multiset(d.bag.arr[..n - 1]) + multiset{d.item};
  }

  /** The random values of a run of draws, each within the pool of the draw it feeds. */
  predicate ValidDraws<T>(b: Bag<T>, rs: seq<int>)
    requires b.Valid() && |b.arr| > 0
    decreases |rs|
  {
    |rs| == 0 || (0 <= rs[0] < b.Pool() && ValidDraws(Next(b, rs[0]).bag, rs[1..]))
  }

  /** The elements a run of draws returns, in order, and the bag it leaves. */
  function Draws<T>(b: Bag<T>, rs: seq<int>): (r: (Bag<T>, seq<T>))
    requires b.Valid() && |b.arr| > 0 && ValidDraws(b, rs)
    ensures r.0.Valid() && |r.0.arr| == |b.arr| && |r.1| == |rs|
    decreases |rs|
  {
    if |rs| == 0 then (b, [])
    else
      var d := Next(b, rs[0]);
      var rest := Draws(d.bag, rs[1..]);
      (rest.0, [d.item] + rest.1)
  }

  /** A run of draws is its first draw followed by the run of the rest from the bag that draw leaves. */
  lemma DrawsFirst<T>(b: Bag<T>, rs: seq<int>)
    requires b.Valid() && |b.arr| > 0 && ValidDraws(b, rs) && |rs| > 0
    ensures var d := Next(b, rs[0]);
      ValidDraws(d.bag, rs[1..]) &&
      Draws(b, rs) == (Draws(d.bag, rs[1..]).0, [d.item] + Draws(d.bag, rs[1..]).1)
  {
  }

  /**
   * Draws that stay within the unused prefix take their elements out of
   * it: what is drawn plus what is left unused is the prefix they started
   * from.
   */
  lemma {:induction false} DrawsFromPool<T>(b: Bag<T>, rs: seq<int>)
    requires b.Valid() && b.numsLeft > 0 && ValidDraws(b, rs) && |rs| <= b.numsLeft
    ensures var (e, items) := Draws(b, rs);
      e.numsLeft == b.numsLeft - |rs| &&
      multiset(items) + multiset(e.arr[..e.numsLeft]) == multiset(b.arr[..b.numsLeft])
    decreases |rs|
  {
    if |rs| > 0 {
      var d := Next(b, rs[0]);
      NextTakesFromPool(b, rs[0]);
      DrawsFirst(b, rs);
      var rest := Draws(d.bag, rs[1..]);
      if |rs| > 1 {
        DrawsFromPool(d.bag, rs[1..]);
      } else {
        assert rest.0 == d.bag && rest.1 == [];
      }
      assert multiset([d.item] + rest.1) == multiset{d.item} + multiset(rest.1);
    }
  }

  /**
   * A full round: as many draws as the array is long, from a fresh bag or
   * one whose pool is used up, return every element exactly once.
   */
  lemma RoundDrawsAll<T>(b: Bag<T>, rs: seq<int>)
    requires b.Valid() && |b.arr| > 0 && (b.numsLeft == 0 || b.numsLeft == |b.arr|)
    requires ValidDraws(b, rs) && |rs| == |b.arr|
    ensures multiset(Draws(b, rs).1) == multiset(b.arr)
    ensures Draws(b, rs).0.numsLeft == 0
  {
    var full := b.(numsLeft := |b.arr|);
    assert Next(b, rs[0]) == Next(full, rs[0]);
    assert ValidDraws(full, rs) && Draws(b, rs) == Draws(full, rs);
    DrawsFromPool(full, rs);
    assert b.arr[..|b.arr|] == b.arr;
    var e := Draws(b, rs).0;
    assert e.arr[..e.numsLeft] == [];
  }
}

=== FILE: tetris.dfy ===
/**
 * The game logic of src/JTetris.java: spawning a drawn piece, moving,
 * dropping and turning the current piece with wall kicks, landing it and
 * losing. The board is 10 columns by 20 rows plus 4 rows of spawn space.
 * Drawing, painting and key bindings are left to the caller; the random
 * index of each draw is a parameter.
 */
module Tetris {
  import opened Wrappers
  import opened Pieces
  import opened Catalog
  import opened Boards
  import opened Bags

  const BoardWidth: nat := 10
  const BoardHeight: nat := 20
  const TopSpace: nat := 4

  /** The catalogue positions the bag shuffles: one per tetromino. */
  const Kinds: seq<nat> := [0, 1, 2, 3, 4, 5, 6]

  /** The commands step receives: DOWN, LEFT, RIGHT, ROTATE, DROP, and any other string. */
  datatype Move = Down | Left | Right | Turn | Drop | Unknown

  /** The current piece: orientation `turn` of catalogue piece `kind`. */
  datatype Current = Current(kind: nat, turn: nat)

  /** Seven non-empty rotation cycles of normalised pieces, as getPieces builds them. */
  predicate CatalogShaped(pieces: seq<seq<Piece>>) {
    |pieces| == 7 &&
    forall k :: 0 <= k < 7 ==> |pieces[k]| >= 1 && forall i :: 0 <= i < |pieces[k]| ==> Normalized(pieces[k][i])
  }

  predicate InCatalog(pieces: seq<seq<Piece>>, c: Current)
    requires CatalogShaped(pieces)
  {
    c.kind < 7 && c.turn < |pieces[c.kind]|
  }

  function PieceOf(pieces: seq<seq<Piece>>, c: Current): (p: Piece)
    requires CatalogShaped(pieces) && InCatalog(pieces, c)
    ensures Normalized(p)
  {
    pieces[c.kind][c.turn]
  }

  /** nextRotation(): the following entry of the cycle, back to the first after the last. */
  function NextTurn(pieces: seq<seq<Piece>>, c: Current): (n: Current)
    requires CatalogShaped(pieces) && InCatalog(pieces, c)
    ensures InCatalog(pieces, n) && n.kind == c.kind
    ensures n.turn == if c.turn + 1 < |pieces[c.kind]| then c.turn + 1 else 0
  {
    Current(c.kind, NextIndex(pieces[c.kind], c.turn))
  }

  /** The catalogue getPieces builds has the shape the game needs. */
  lemma CatalogueShaped()
    ensures CatalogShaped(GetPieces())
  {
  }

  /**
   * In the catalogue, the orientation after a piece is its quarter turn,
   * and after the last orientation comes the first.
   */
  lemma NextTurnRotates(c: Current)
    requires CatalogShaped(GetPieces()) && InCatalog(GetPieces(), c)
    ensures var n := NextTurn(GetPieces(), c);
      (c.turn + 1 < |GetPieces()[c.kind]| ==> PieceOf(GetPieces(), n) == Rotate(PieceOf(GetPieces(), c))) &&
      (c.turn + 1 == |GetPieces()[c.kind]| ==> PieceOf(GetPieces(), n) == FirstPiece(c.kind))
  {
  }

  /**
   * The game state. `current` is None until a piece has been placed, as
   * Java's curPiece is null; the bag holds catalogue positions where Java's
   * holds the pieces themselves.
   */
  datatype Game = Game(board: Board, pieces: seq<seq<Piece>>, bag: Bag<nat>, current: Option<Current>,
                       curX: int, curY: int, playing: bool, lost: bool) {
    predicate Valid() {
      board.Valid() && board.width == BoardWidth && board.height == BoardHeight + TopSpace &&
      CatalogShaped(pieces) && bag.Valid() && multiset(bag.arr) == multiset(Kinds) &&
      (current.Some? ==> InCatalog(pieces, current.value) && 0 <= curX && curX + PieceOf(pieces, current.value).Width() <= BoardWidth)
    }

    /** The current piece's orientation. */
    function CurPiece(): (p: Piece)
      requires Valid() && current.Some?
      ensures Normalized(p)
    {
      PieceOf(pieces, current.value)
    }
  }

  /** The bag holds every catalogue position exactly once, so seven entries, each below 7. */
  lemma BagKinds(bag: Bag<nat>)
    requires multiset(bag.arr) == multiset(Kinds)
    ensures |bag.arr| == 7 && forall i :: 0 <= i < |bag.arr| ==> bag.arr[i] < 7
  {
    assert |bag.arr| == |multiset(bag.arr)| == |multiset(Kinds)| == 7;
    forall i | 0 <= i < |bag.arr|
      ensures bag.arr[i] < 7
    {
      assert bag.arr[i] in multiset(Kinds);
    }
  }

  /**
   * setCurrent(piece, x, y): take the current piece off the board with
   * undo and place `c` at (x, y); on success it becomes the current piece
   * there, otherwise the failed place is undone.
   */
  function SetCurrent(g: Game, c: Current, x: int, y: int): (r: (Game, PlaceResult))
    requires g.Valid() && InCatalog(g.pieces, c)
    ensures r.0.Valid() && r.0.pieces == g.pieces && r.0.bag == g.bag && r.0.playing == g.playing && r.0.lost == g.lost
    ensures r.1.Placed() ==> r.0.current == Some(c) && r.0.curX == x && r.0.curY == y
    ensures !r.1.Placed() ==> r.0.current == g.current && r.0.curX == g.curX && r.0.curY == g.curY
    ensures r.1 == Place(Undo(g.board), PieceOf(g.pieces, c), x, y).result
    ensures r.1.Placed() ==> r.0.board == Place(Undo(g.board), PieceOf(g.pieces, c), x, y).board
    ensures !r.1.Placed() ==> r.0.board.cur == Undo(g.board).cur && !r.0.board.pending
  {
    var b := Undo(g.board);
    var pl := Place(b, PieceOf(g.pieces, c), x, y);
    if pl.result.Placed() then
      PlacedInside(b, PieceOf(g.pieces, c), x, y);
      (g.(board := pl.board, current := Some(c), curX := x, curY := y), pl.result)
    else
      (g.(board := Undo(pl.board)), pl.result)
  }

  /**
   * What setCurrent leaves on the board: on success the old board with the
   * piece painted at (x, y) and nothing else changed, which undo takes off
   * again; on failure the old board without the current piece.
   */
  lemma SetCurrentShows(g: Game, c: Current, x: int, y: int)
    requires g.Valid() && InCatalog(g.pieces, c)
    ensures var (r, code) := SetCurrent(g, c, x, y);
      var b := Undo(g.board);
      var p := PieceOf(g.pieces, c);
      (code.Placed() ==>
        (forall j :: 0 <= j < |p.body| ==> InGrid(Target(p.body[j], x, y), b.width, b.height)) &&
        (forall q :: InGrid(q, b.width, b.height) ==>
          r.board.At(q.x, q.y) == if Covers(p.body, x, y, |p.body|, q) then Some(p.color) else b.At(q.x, q.y)) &&
        Undo(r.board).cur == b.cur) &&
      (!code.Placed() ==> r.board.cur == b.cur)
  {
    var b := Undo(g.board);
    var p := PieceOf(g.pieces, c);
    if Place(b, p, x, y).result.Placed() {
      PlacedUnderHeights(b, p, x, y);
      PlacedCells(b, p, x, y);
    }
  }

  /** The row pieces spawn at, and the column that centres a piece of width w on the board. */
  function SpawnX(w: int): int {
    (BoardWidth - w) / 2
  }

  /**
   * addNewPiece(): on a committed board of a game in progress, draw the
   * next catalogue piece from the bag (r is the random index of the draw)
   * and set it, in its first orientation, at the top centre. Otherwise
   * PLACE_BAD and nothing changes.
   */
  function AddNewPiece(g: Game, r: int): (res: (Game, PlaceResult))
    requires g.Valid() && 0 <= r < g.bag.Pool()
    ensures res.0.Valid() && res.0.pieces == g.pieces && res.0.playing == g.playing && res.0.lost == g.lost
    ensures !g.playing || g.lost || !g.board.committed ==> res == (g, Bad)
    ensures g.playing && !g.lost && g.board.committed ==> |g.bag.arr| > 0 && res.0.bag == Next(g.bag, r).bag
    ensures g.playing && !g.lost && g.board.committed ==>
      |g.bag.arr| > 0 && Next(g.bag, r).item < 7 &&
      (var c := Current(Next(g.bag, r).item, 0);
       var p := PieceOf(g.pieces, c);
       var pl := Place(g.board, p, SpawnX(p.Width()), BoardHeight);
       res.1 == pl.result &&
       (pl.result.Placed() ==>
         res.0.board == pl.board && res.0.current == Some(c) && res.0.curX == SpawnX(p.Width()) && res.0.curY == BoardHeight) &&
       (!pl.result.Placed() ==>
         res.0.board == Undo(pl.board) && res.0.current == g.current && res.0.curX == g.curX && res.0.curY == g.curY))
  {
    if g.playing && !g.lost then
      if !g.board.committed then (g, Bad)
      else
        BagKinds(g.bag);
        var d := Next(g.bag, r);
        var c := Current(d.item, 0);
        SetCurrent(g.(bag := d.bag), c, SpawnX(PieceOf(g.pieces, c).Width()), BoardHeight)
    else (g, Bad)
  }

  /**
   * A successful spawn puts the drawn entry of the bag, in its first
   * orientation, horizontally centred (up to one column) on row 20, and
   * takes that entry out of the bag's unused prefix.
   */
  lemma SpawnCentred(g: Game, r: int)
    requires g.Valid() && 0 <= r < g.bag.Pool() && AddNewPiece(g, r).1.Placed()
    ensures var (h, _) := AddNewPiece(g, r);
      h.current.Some? && h.current.value == Current(g.bag.arr[r], 0) &&
      h.curY == BoardHeight &&
      BoardWidth - 1 <= 2 * h.curX + PieceOf(h.pieces, h.current.value).Width() <= BoardWidth &&
      h.bag == Next(g.bag, r).bag
  {
    BagKinds(g.bag);
    var d := Next(g.bag, r);
    var c := Current(d.item, 0);
    var p := PieceOf(g.pieces, c);
    assert AddNewPiece(g, r) == SetCurrent(g.(bag := d.bag), c, SpawnX(p.Width()), BoardHeight);
  }

  /**
   * getNewPos(mv): where mv would take the current piece. DROP asks the
   * board (without the current piece on it) for the drop height of the
   * current column; an unknown command gives (-1, -1).
   */
  function NewPos(g: Game, b: Board, mv: Move): (pos: (int, int))
    requires g.Valid() && g.current.Some? && b.Valid() && b.width == BoardWidth
    ensures mv != Unknown ==> -1 <= pos.0 - g.curX <= 1 && (mv != Drop ==> g.curY - 1 <= pos.1 <= g.curY)
    ensures mv == Drop ==> pos.0 == g.curX && pos.1 >= -1
  {
    match mv
    case Down => (g.curX, g.curY - 1)
    case Left => (g.curX - 1, g.curY)
    case Right => (g.curX + 1, g.curY)
    case Turn => (g.curX, g.curY)
    case Drop => (g.curX, DropHeight(b, g.CurPiece(), g.curX))
    case Unknown => (-1, -1)
  }

  /**
   * DOWN, LEFT and RIGHT move the piece by one row or column; ROTATE keeps
   * its position (the turn itself picks the new one).
   */
  lemma NewPosSteps(g: Game, b: Board, mv: Move)
    requires g.Valid() && g.current.Some? && b.Valid() && b.width == BoardWidth
    ensures var (x, y) := NewPos(g, b, mv);
      (mv == Down ==> x == g.curX && y + 1 == g.curY) &&
      (mv == Left ==> x + 1 == g.curX && y == g.curY) &&
      (mv == Right ==> x == g.curX + 1 && y == g.curY) &&
      (mv == Turn ==> x == g.curX && y == g.curY) &&
      (mv == Unknown ==> x == -1 && y == -1)
  {
  }

  /**
   * DROP keeps the column and picks a row, never below -1, at which every
   * point of the piece is at or above its column's height ...
   */
  lemma DropPosClears(g: Game, b: Board)
    requires g.Valid() && g.current.Some? && b.Valid() && b.width == BoardWidth
    ensures var (x, y) := NewPos(g, b, Drop);
      var p := g.CurPiece();
      x == g.curX && y >= -1 &&
      forall i :: 0 <= i < |p.body| ==> p.body[i].y + y >= b.ColumnHeight(x + p.body[i].x)
  {
    NewPosDrop(g, b);
    DropClears(b, g.CurPiece(), g.curX);
  }

  /** DROP keeps the column and takes the drop height there. */
  lemma NewPosDrop(g: Game, b: Board)
    requires g.Valid() && g.current.Some? && b.Valid() && b.width == BoardWidth
    ensures NewPos(g, b, Drop) == (g.curX, DropHeight(b, g.CurPiece(), g.curX))
  {
  }

  /** ... and the lowest such row: unless it is -1, one skirt column rests exactly on its column. */
  lemma DropPosRests(g: Game, b: Board)
    requires g.Valid() && g.current.Some? && b.Valid() && b.width == BoardWidth
    ensures var y := NewPos(g, b, Drop).1;
      var p := g.CurPiece();
      y == -1 || exists i :: 0 <= i < p.Width() && y == b.ColumnHeight(g.curX + i) - p.Skirt()[i]
  {
  }

  /**
   * The landing branch of step: the test place has failed on a DOWN or
   * DROP. If the board, with whatever the failed test place wrote, rises
   * above row 20 the piece is put back and the game is lost; otherwise the
   * piece is put back, full rows are cleared, the board is committed and
   * the next piece is added.
   */
  function Land(g: Game, tested: Board, r: int): (h: Game)
    requires g.Valid() && g.current.Some? && !g.lost && tested.Valid() && tested.width == BoardWidth
    requires tested.height == BoardHeight + TopSpace && 0 <= r < g.bag.Pool()
    ensures h.Valid()
    ensures h.lost <==> MaxHeight(tested) + 1 > BoardHeight
    ensures h.lost ==> !h.playing && h.bag == g.bag && h.current == g.current
    ensures !h.lost ==> h.playing == g.playing && (g.playing ==> h.bag == Next(g.bag, r).bag)
    ensures var back := Place(Undo(tested), g.CurPiece(), g.curX, g.curY).board;
      (h.lost ==> h.board == back && h.curX == g.curX && h.curY == g.curY) &&
      (!h.lost ==> Undo(h.board).cur == ClearRows(back).0.cur)
    ensures !h.lost && g.playing ==>
      |g.bag.arr| > 0 && Next(g.bag, r).item < 7 &&
      (var cleared := Commit(ClearRows(Place(Undo(tested), g.CurPiece(), g.curX, g.curY).board).0);
       var c := Current(Next(g.bag, r).item, 0);
       var p := PieceOf(g.pieces, c);
       var pl := Place(cleared, p, SpawnX(p.Width()), BoardHeight);
       (pl.result.Placed() ==>
         h.board == pl.board && h.current == Some(c) && h.curX == SpawnX(p.Width()) && h.curY == BoardHeight) &&
       (!pl.result.Placed() ==>
         h.board == Undo(pl.board) && h.current == g.current && h.curX == g.curX && h.curY == g.curY))
  {
    var back := Place(Undo(tested), g.CurPiece(), g.curX, g.curY).board;
    if MaxHeight(tested) + 1 > BoardHeight then
      g.(board := back, playing := false, lost := true)
    else
      BagKinds(g.bag);
      AddNewPiece(g.(board := Commit(ClearRows(back).0)), r).0
  }

  /**
   * step(mv) for every command but ROTATE: take the piece off, try it at
   * its new position; a failed DOWN or DROP lands it, a successful move
   * makes the new position current, any other failure puts it back.
   */
  function Shift(g: Game, mv: Move, r: int): (h: Game)
    requires g.Valid() && g.current.Some? && !g.lost && 0 <= r < g.bag.Pool()
    ensures h.Valid()
    ensures h.lost ==> mv == Down || mv == Drop
  {
    var c := g.current.value;
    var b := Undo(g.board);
    var (x, y) := NewPos(g, b, mv);
    var test := Place(b, PieceOf(g.pieces, c), x, y);
    if !test.result.Placed() && (mv == Down || mv == Drop) then Land(g, test.board, r)
    else if test.result.Placed() then SetCurrent(g.(board := test.board), c, x, y).0
    else g.(board := Place(Undo(test.board), PieceOf(g.pieces, c), g.curX, g.curY).board)
  }

  /**
   * A move that fits takes the piece to getNewPos's position; a DOWN or
   * DROP that does not fit lands the piece; any other move that does not
   * fit leaves the piece, its position and the bag as they were, with the
   * piece placed back where it was.
   */
  lemma ShiftMoves(g: Game, mv: Move, r: int)
    requires g.Valid() && g.current.Some? && !g.lost && 0 <= r < g.bag.Pool()
    ensures var h := Shift(g, mv, r);
      var b := Undo(g.board);
      var (x, y) := NewPos(g, b, mv);
      var fits := Place(b, g.CurPiece(), x, y).result.Placed();
      (fits ==>
        h.current == g.current && h.curX == x && h.curY == y && h.bag == g.bag && h.playing == g.playing && !h.lost &&
        h.board == Place(b, g.CurPiece(), x, y).board) &&
      (!fits && (mv == Down || mv == Drop) ==> h == Land(g, Place(b, g.CurPiece(), x, y).board, r)) &&
      (!fits && mv != Down && mv != Drop ==>
        h.current == g.current && h.curX == g.curX && h.curY == g.curY && h.bag == g.bag && h.playing == g.playing && !h.lost &&
        h.board == Place(b, g.CurPiece(), g.curX, g.curY).board)
  {
    var b := Undo(g.board);
    var (x, y) := NewPos(g, b, mv);
    var test := Place(b, g.CurPiece(), x, y);
    assert Undo(test.board).cur == b.cur;
    if test.result.Placed() {
      PlaceReadsLive(Undo(test.board), b, g.CurPiece(), x, y);
    } else {
      PlaceReadsLive(Undo(test.board), b, g.CurPiece(), g.curX, g.curY);
    }
  }

  /** The wall kicks ROTATE tries in turn: right, left, down, down-right, down-left. */
  const Kicks: seq<(int, int)> := [(1, 0), (-1, 0), (0, -1), (1, -1), (-1, -1)]

  /**
   * One wall kick: try the turned piece at (x, y) and take the try back;
   * if it fitted, setCurrent puts it there and the loop ends.
   */
  function KickTry(g: Game, n: Current, x: int, y: int): (r: (Game, bool))
    requires g.Valid() && InCatalog(g.pieces, n)
    ensures r.0.Valid() && r.0.pieces == g.pieces && r.0.bag == g.bag && r.0.playing == g.playing && r.0.lost == g.lost
    ensures r.1 <==> Place(g.board, PieceOf(g.pieces, n), x, y).result.Placed()
    ensures !r.1 ==> r.0.current == g.current && r.0.curX == g.curX && r.0.curY == g.curY
    ensures r.1 ==> r.0.current == Some(n) && r.0.curX == x && r.0.curY == y
    ensures r.1 ==> r.0.board == Place(g.board, PieceOf(g.pieces, n), x, y).board
    ensures !r.1 ==> r.0.board.cur == g.board.cur && !r.0.board.pending
    ensures r.1 ==> KickBoard(g, r.0, n)
  {
    var t := Place(g.board, PieceOf(g.pieces, n), x, y);
    var g' := g.(board := Undo(t.board));
    if t.result.Placed() then
      PlaceReadsLive(Undo(g'.board), g.board, PieceOf(g.pieces, n), x, y);
      (SetCurrent(g', n, x, y).0, true)
    else (g', false)
  }

  /**
   * The wall-kick loop over the kicks ks still to try: the first kick at
   * which the turned piece fits becomes current; if none fits, setCurrent
   * tries the turned piece at the old position.
   */
  function Kick(g: Game, n: Current, nx: int, ny: int, ks: seq<(int, int)>): (h: Game)
    requires g.Valid() && InCatalog(g.pieces, n)
    ensures h.Valid() && h.pieces == g.pieces && h.bag == g.bag && h.playing == g.playing && h.lost == g.lost
    ensures KickOutcome(g, h, n, nx, ny, ks)
    ensures |ks| > 0 && KickTry(g, n, nx + ks[0].0, ny + ks[0].1).1 ==> h == KickTry(g, n, nx + ks[0].0, ny + ks[0].1).0
    decreases |ks|
  {
    if |ks| == 0 then
      var s := SetCurrent(g, n, g.curX, g.curY).0;
      assert s.curX == g.curX && s.curY == g.curY && (s.current == g.current || s.current == Some(n));
      s
    else
      var t := KickTry(g, n, nx + ks[0].0, ny + ks[0].1);
      if t.1 then
        assert t.0.current == Some(n) && t.0.curX == nx + ks[0].0 && t.0.curY == ny + ks[0].1;
        assert KickSpot(t.0.curX, t.0.curY, nx, ny, ks);
        t.0
      else
        assert t.0.current == g.current && t.0.curX == g.curX && t.0.curY == g.curY;
        Kick(t.0, n, nx, ny, ks[1..])
  }

  /**
   * Where the wall-kick loop over ks can leave the piece: as it was, or
   * the turned piece n at the old position or at one of the kicks.
   */
  predicate KickOutcome(g: Game, h: Game, n: Current, nx: int, ny: int, ks: seq<(int, int)>) {
    (h.current == g.current && h.curX == g.curX && h.curY == g.curY) ||
    (h.current == Some(n) && ((h.curX == g.curX && h.curY == g.curY) || KickSpot(h.curX, h.curY, nx, ny, ks)))
  }

  /** (x, y) is the turned piece's position (nx, ny) shifted by one of the kicks ks. */
  predicate KickSpot(x: int, y: int, nx: int, ny: int, ks: seq<(int, int)>)
    decreases |ks|
  {
    |ks| > 0 && ((x == nx + ks[0].0 && y == ny + ks[0].1) || KickSpot(x, y, nx, ny, ks[1..]))
  }

  /** KickSpot is membership: (x, y) is (nx, ny) plus some entry of ks. */
  lemma {:induction false} KickSpotAt(x: int, y: int, nx: int, ny: int, ks: seq<(int, int)>)
    ensures KickSpot(x, y, nx, ny, ks) <==> exists j :: 0 <= j < |ks| && x == nx + ks[j].0 && y == ny + ks[j].1
    decreases |ks|
  {
    if |ks| > 0 {
      KickSpotAt(x, y, nx, ny, ks[1..]);
      if exists j :: 0 <= j < |ks| && x == nx + ks[j].0 && y == ny + ks[j].1 {
        var j :| 0 <= j < |ks| && x == nx + ks[j].0 && y == ny + ks[j].1;
        if j > 0 {
          assert ks[1..][j - 1] == ks[j];
        }
      }
      if KickSpot(x, y, nx, ny, ks[1..]) {
        var j :| 0 <= j < |ks| - 1 && x == nx + ks[1..][j].0 && y == ny + ks[1..][j].1;
        assert ks[j + 1] == ks[1..][j];
      }
    }
  }

  /**
   * What the wall-kick loop leaves on a board without a pending snapshot:
   * the board's arrays with the current piece and position kept, or the
   * turned piece n placed, successfully, at its new position.
   */
  predicate KickBoard(g: Game, h: Game, n: Current)
    requires g.Valid() && InCatalog(g.pieces, n)
  {
    (h.current == g.current && h.curX == g.curX && h.curY == g.curY && h.board.cur == g.board.cur && !h.board.pending) ||
    (h.current == Some(n) &&
      var pl := Place(g.board, PieceOf(g.pieces, n), h.curX, h.curY);
      pl.result.Placed() && h.board == pl.board)
  }

  /**
   * On a board without a pending snapshot, as after the undo that precedes
   * the kicks, the loop either keeps the current piece, its position and
   * the board's arrays, or places the turned piece successfully where it
   * leaves it.
   */
  lemma {:induction false} KickBoards(g: Game, n: Current, nx: int, ny: int, ks: seq<(int, int)>)
    requires g.Valid() && InCatalog(g.pieces, n) && !g.board.pending
    ensures KickBoard(g, Kick(g, n, nx, ny, ks), n)
    decreases |ks|
  {
    if |ks| == 0 {
      KickLastBoard(g, n, nx, ny, ks);
    } else if KickTry(g, n, nx + ks[0].0, ny + ks[0].1).1 {
      KickFitBoard(g, n, nx, ny, ks);
    } else {
      var t := KickTry(g, n, nx + ks[0].0, ny + ks[0].1).0;
      KickMisses(g, n, nx, ny, ks);
      KickBoards(t, n, nx, ny, ks[1..]);
      KickMissBoard(g, t, Kick(t, n, nx, ny, ks[1..]), n);
    }
  }

  /** A kick that fits leaves the turned piece placed there. */
  lemma KickFitBoard(g: Game, n: Current, nx: int, ny: int, ks: seq<(int, int)>)
    requires g.Valid() && InCatalog(g.pieces, n) && |ks| > 0
    requires KickTry(g, n, nx + ks[0].0, ny + ks[0].1).1
    ensures KickBoard(g, Kick(g, n, nx, ny, ks), n)
  {
  }

  /** A missed kick keeps the arrays, so what the rest of the loop leaves holds of the board before the miss. */
  lemma KickMissBoard(g: Game, t: Game, h: Game, n: Current)
    requires g.Valid() && InCatalog(g.pieces, n) && t.Valid() && t.pieces == g.pieces
    requires t.current == g.current && t.curX == g.curX && t.curY == g.curY && t.board.cur == g.board.cur
    requires KickBoard(t, h, n)
    ensures KickBoard(g, h, n)
  {
    if h.current == Some(n) && Place(t.board, PieceOf(g.pieces, n), h.curX, h.curY).result.Placed() {
      PlaceReadsLive(t.board, g.board, PieceOf(g.pieces, n), h.curX, h.curY);
    }
  }

  /** With no kick left, setCurrent at the old position either places the turned piece or leaves the arrays. */
  lemma KickLastBoard(g: Game, n: Current, nx: int, ny: int, ks: seq<(int, int)>)
    requires g.Valid() && InCatalog(g.pieces, n) && |ks| == 0 && !g.board.pending
    ensures KickBoard(g, Kick(g, n, nx, ny, ks), n)
  {
    assert Undo(g.board) == g.board;
  }

  /** After the last kick the turned piece is tried at the old position. */
  lemma KickLast(g: Game, n: Current, nx: int, ny: int, ks: seq<(int, int)>)
    requires g.Valid() && InCatalog(g.pieces, n) && |ks| == 0
    ensures var h := Kick(g, n, nx, ny, ks);
      (h.current == g.current && h.curX == g.curX && h.curY == g.curY) ||
      (h.current == Some(n) && h.curX == g.curX && h.curY == g.curY)
  {
  }

  /** A kick that fits ends the loop there, with the turned piece current at that kick. */
  lemma KickFits(g: Game, n: Current, nx: int, ny: int, ks: seq<(int, int)>)
    requires g.Valid() && InCatalog(g.pieces, n) && |ks| > 0
    requires KickTry(g, n, nx + ks[0].0, ny + ks[0].1).1
    ensures var h := Kick(g, n, nx, ny, ks);
      h.current == Some(n) && h.curX == nx + ks[0].0 && h.curY == ny + ks[0].1
  {
  }

  /** A kick that does not fit hands over to the next one. */
  lemma KickMisses(g: Game, n: Current, nx: int, ny: int, ks: seq<(int, int)>)
    requires g.Valid() && InCatalog(g.pieces, n) && |ks| > 0
    requires !KickTry(g, n, nx + ks[0].0, ny + ks[0].1).1
    ensures var h := KickTry(g, n, nx + ks[0].0, ny + ks[0].1).0;
      h.current == g.current && h.curX == g.curX && h.curY == g.curY &&
      Kick(g, n, nx, ny, ks) == Kick(h, n, nx, ny, ks[1..])
  {
  }

  /**
   * Where the turned piece q goes when the piece p at (x, y) turns: the
   * centres of their boxes, each rounded down, coincide.
   */
  function TurnOrigin(p: Piece, q: Piece, x: int, y: int): (o: (int, int))
    requires p.Valid() && q.Valid()
    ensures -1 <= (2 * o.0 + q.Width()) - (2 * x + p.Width()) <= 1
    ensures -1 <= (2 * o.1 + q.Height()) - (2 * y + p.Height()) <= 1
  {
    (x + p.Width() / 2 - q.Width() / 2, y + p.Height() / 2 - q.Height() / 2)
  }

  /**
   * step(ROTATE): the next orientation is placed so that the centres of
   * the two boxes (rounded down) coincide; if it does not fit there, the
   * wall kicks are tried.
   */
  function TurnPiece(g: Game): (h: Game)
    requires g.Valid() && g.current.Some?
    ensures h.Valid() && h.bag == g.bag && h.playing == g.playing && h.lost == g.lost
    ensures Undo(h.board).cur == Undo(g.board).cur
    ensures var n := NextTurn(g.pieces, g.current.value);
      h.board.cur == Undo(g.board).cur ||
      (h.current == Some(n) && h.board == Place(Undo(g.board), PieceOf(g.pieces, n), h.curX, h.curY).board)
  {
    var c := g.current.value;
    var n := NextTurn(g.pieces, c);
    var q := PieceOf(g.pieces, n);
    var (nx, ny) := TurnOrigin(PieceOf(g.pieces, c), q, g.curX, g.curY);
    var t := Place(Undo(g.board), q, nx, ny);
    var g1 := g.(board := Undo(t.board));
    if t.result.Placed() then
      PlaceReadsLive(Undo(g1.board), Undo(g.board), q, nx, ny);
      SetCurrent(g1, n, nx, ny).0
    else
      var h := Kick(g1, n, nx, ny, Kicks);
      KickBoards(g1, n, nx, ny, Kicks);
      PlaceReadsLive(g1.board, Undo(g.board), q, h.curX, h.curY);
      h
  }

  /**
   * A turn whose next orientation fits at the centred origin makes it
   * current there, placed on the board without the old piece. Otherwise
   * either the next orientation is placed, successfully, at a wall kick
   * from the centred origin or at the old origin and becomes current there,
   * or the current piece and its position are kept and the board is left
   * without any piece on it.
   */
  lemma TurnTargets(g: Game)
    requires g.Valid() && g.current.Some?
    ensures var h := TurnPiece(g);
      var b := Undo(g.board);
      var c := g.current.value;
      var n := NextTurn(g.pieces, c);
      var q := PieceOf(g.pieces, n);
      var (nx, ny) := TurnOrigin(PieceOf(g.pieces, c), q, g.curX, g.curY);
      (Place(b, q, nx, ny).result.Placed() ==>
        h.current == Some(n) && h.curX == nx && h.curY == ny && h.board == Place(b, q, nx, ny).board) &&
      ((h.current == g.current && h.curX == g.curX && h.curY == g.curY && h.board.cur == b.cur) ||
       (h.current == Some(n) && Place(b, q, h.curX, h.curY).result.Placed() && h.board == Place(b, q, h.curX, h.curY).board &&
         ((h.curX == nx && h.curY == ny) || KickSpot(h.curX, h.curY, nx, ny, Kicks) || (h.curX == g.curX && h.curY == g.curY))))
  {
    var b := Undo(g.board);
    var c := g.current.value;
    var n := NextTurn(g.pieces, c);
    var q := PieceOf(g.pieces, n);
    var (nx, ny) := TurnOrigin(PieceOf(g.pieces, c), q, g.curX, g.curY);
    var t := Place(b, q, nx, ny);
    var g1 := g.(board := Undo(t.board));
    if t.result.Placed() {
      PlaceReadsLive(Undo(g1.board), b, q, nx, ny);
    } else {
      var h := Kick(g1, n, nx, ny, Kicks);
      KickBoards(g1, n, nx, ny, Kicks);
      PlaceReadsLive(g1.board, b, q, h.curX, h.curY);
    }
  }

  /** The piece q fits on b at none of the spots (nx, ny) shifted by the kicks ks. */
  predicate NoKickFits(b: Board, q: Piece, nx: int, ny: int, ks: seq<(int, int)>)
    requires b.Valid()
    decreases |ks|
  {
    |ks| == 0 || (!Place(b, q, nx + ks[0].0, ny + ks[0].1).result.Placed() && NoKickFits(b, q, nx, ny, ks[1..]))
  }

  /** Whether a kick fits depends only on the live arrays. */
  lemma {:induction false} NoKickFitsLive(b1: Board, b2: Board, q: Piece, nx: int, ny: int, ks: seq<(int, int)>)
    requires b1.Valid() && b2.Valid() && b1.width == b2.width && b1.height == b2.height && b1.cur == b2.cur
    requires NoKickFits(b1, q, nx, ny, ks)
    ensures NoKickFits(b2, q, nx, ny, ks)
    decreases |ks|
  {
    if |ks| > 0 {
      PlaceReadsLive(b1, b2, q, nx + ks[0].0, ny + ks[0].1);
      NoKickFitsLive(b1, b2, q, nx, ny, ks[1..]);
    }
  }

  /**
   * When the turned piece fits at none of the kicks ks and not at the old
   * position, the loop ends with setCurrent undoing its failed place: the
   * current piece and its position are kept, but on a board without a
   * pending snapshot the piece is no longer drawn on it.
   */
  lemma {:induction false} KickVanishes(g: Game, n: Current, nx: int, ny: int, ks: seq<(int, int)>)
    requires g.Valid() && InCatalog(g.pieces, n) && !g.board.pending
    requires !Place(g.board, PieceOf(g.pieces, n), g.curX, g.curY).result.Placed()
    requires NoKickFits(g.board, PieceOf(g.pieces, n), nx, ny, ks)
    ensures var h := Kick(g, n, nx, ny, ks);
      h.current == g.current && h.curX == g.curX && h.curY == g.curY && h.board.cur == g.board.cur
    decreases |ks|
  {
    var q := PieceOf(g.pieces, n);
    if |ks| == 0 {
      assert Undo(g.board) == g.board;
    } else {
      var t := KickTry(g, n, nx + ks[0].0, ny + ks[0].1).0;
      KickMisses(g, n, nx, ny, ks);
      PlaceReadsLive(g.board, t.board, q, g.curX, g.curY);
      NoKickFitsLive(g.board, t.board, q, nx, ny, ks[1..]);
      KickVanishes(t, n, nx, ny, ks[1..]);
    }
  }

  /**
   * A turn whose next orientation fits neither at the centred origin, nor
   * at any wall kick, nor at the old origin keeps the current piece and its
   * position but leaves the board without the piece: the final setCurrent
   * undoes its own failed place.
   */
  lemma TurnVanishes(g: Game)
    requires g.Valid() && g.current.Some?
    requires var b := Undo(g.board);
      var c := g.current.value;
      var q := PieceOf(g.pieces, NextTurn(g.pieces, c));
      var (nx, ny) := TurnOrigin(PieceOf(g.pieces, c), q, g.curX, g.curY);
      !Place(b, q, nx, ny).result.Placed() && !Place(b, q, g.curX, g.curY).result.Placed() && NoKickFits(b, q, nx, ny, Kicks)
    ensures var h := TurnPiece(g);
      h.current == g.current && h.curX == g.curX && h.curY == g.curY && h.board.cur == Undo(g.board).cur
  {
    var b := Undo(g.board);
    var c := g.current.value;
    var n := NextTurn(g.pieces, c);
    var q := PieceOf(g.pieces, n);
    var (nx, ny) := TurnOrigin(PieceOf(g.pieces, c), q, g.curX, g.curY);
    var g1 := g.(board := Undo(Place(b, q, nx, ny).board));
    PlaceReadsLive(b, g1.board, q, g.curX, g.curY);
    NoKickFitsLive(b, g1.board, q, nx, ny, Kicks);
    KickVanishes(g1, n, nx, ny, Kicks);
  }

  /**
   * step(mv): nothing while the game is paused, over, or has no current
   * piece; otherwise ROTATE turns and every other command shifts. r is the
   * random index used if a landing draws the next piece.
   */
  function Step(g: Game, mv: Move, r: int): (h: Game)
    requires g.Valid() && 0 <= r < g.bag.Pool()
    ensures h.Valid()
    ensures !g.playing || g.lost || g.current.None? ==> h == g
    ensures h.lost ==> g.lost || mv == Down || mv == Drop
  {
    if !g.playing || g.lost || g.current.None? then g
    else if mv != Turn then Shift(g, mv, r)
    else TurnPiece(g)
  }

  /**
   * startGame(): an empty committed 10 x 24 board, a fresh bag of the seven
   * pieces, and the first piece added (r is the random index of its draw).
   */
  function StartGame(r: int): (g: Game)
    requires 0 <= r < 7
    ensures g.Valid() && g.playing && !g.lost
    ensures g.pieces == GetPieces() && g.bag == Next(New(Kinds), r).bag
  {
    CatalogueShaped();
    var g0 := Game(NewBoard(BoardWidth, BoardHeight + TopSpace), GetPieces(), New(Kinds), None, 0, 0, true, false);
    AddNewPiece(g0, r).0
  }
}

=== FILE: wrappers.dfy ===
/** An optional value, standing in for a Java reference that may be null. */
module Wrappers {

  datatype Option<+T> = None | Some(value: T)

}
